=== FILE: README.md ===
# MandarinMe dictionary core, modelled in Dafny

MandarinMe is a browser app for learning Mandarin. Its dictionary core has three parts:

- The build-time converter turns the CC-CEDICT text file into a JSON array of entries.
- A lighter browser-side reader parses the same text with plain string splits.
- The search module loads the array, builds a headword index and answers queries. A query can be hanzi, pinyin with or without tones, or English. The module also keeps a favorites list in browser storage.

This project models those three parts as pure functions over immutable data. It proves what each operation guarantees.

Modules, in dependency order:

| module | file | models |
|---|---|---|
| `Wrappers` | wrappers.dfy | `Option` and `Result` |
| `Text` | text.dfy | ECMAScript whitespace and line terminators, `trim`, `includes`, `split` and `join` on one character |
| `Entries` | entries.dfy | a dictionary entry, whose fields may be strings, arrays or missing |
| `Normalize` | normalize.dfy | `normalizeString`, `stripPinyinNumbers`, `isChineseInput`, the pinyin test on the query, `rankMatch` |
| `Store` | store.dfy | `loadDictionary` and its headword index |
| `Scoring` | scoring.dfy | the three scoring strategies and the hanzi fallback |
| `Assemble` | assemble.dfy | dedup, sort, `slice` and projection of the results |
| `Searching` | search.dfy | `search` |
| `Display` | display.dfy | `formatEntryForDisplay` |
| `Favorites` | favorites.dfy | `entryKey`, `getFavorites`, `addFavorite`, `removeFavorite`, `clearFavorites` |
| `CedictParser` | cedict_parser.dfy | `loadCedict` once the text is fetched |
| `ConvertCedict` | convert_cedict.dfy | the converter script once the file is read |

The model keeps the code's quirks rather than repairing them:

- An ideographic query that is an index key returns raw `{ entry, score: 100 }` objects.
  - It skips dedup, sorting, the limit and the projection.
  - `formatEntryForDisplay` reads none of its fields from such an object. Every card built from an exact hanzi search is therefore blank (`Display.ExactHitsShowBlank`).
- The tone-aware reading rank adds 5 even when the rank itself is 0. Any query with a tone digit or mark therefore gives every entry with a non-empty reading a score of at least 5 (`Scoring.ToneBonusOnMiss`).
- The dedup key uses the raw first reading. For an empty reading array it reads `undefined`.
- The favorites key uses the stripped first reading.
- A missing gloss differs between the two projections:
  - search results turn it into `[]`;
  - favorites turn it into `[""]`.
- A missing or zero limit means 20. A negative limit counts back from the end, as `slice` does.
- The browser-side reader keeps `%` lines that the converter drops (`ConvertCedict.PercentLinesDisagree`).

The converter's pattern `^(\S+)\s+(\S+)\s+\[([^\]]+)\]\s+\/(.+)\/\s*$` is modelled as a deterministic recogniser, `ConvertCedict.MatchLine`. It is proved sound and complete against a declarative description of the lines the pattern accepts:

- `ConvertCedict.MatchSound` shows that whatever it matches is such a line;
- `ConvertCedict.MatchComplete` shows that every such line is matched with exactly its groups.

In the same way, the lazy `\[(.*?)\]` of the browser reader is characterised as the leftmost bracket pair whose group can close.

## Model

| member | source | states |
|---|---|---|
| Text.TrimShape | src/js/searchDictionary.mjs:79 | `trim` keeps the middle of the text and removes only whitespace runs at the two ends |
| Text.TrimEmpty | src/js/searchDictionary.mjs:79 | trimming leaves nothing exactly when the text is all whitespace |
| Text.JoinSplit | src/js/convertCedict.mjs:35 | splitting on a character and joining back with it gives the text back |
| Text.SplitJoin | src/js/convertCedict.mjs:35 | splitting a join of separator-free pieces gives the pieces back |
| Text.SplitConcat | src/js/cedictParser.mjs:5 | splitting text that two parts make around one separator splits each part on its own |
| Normalize.NormalizeShape | src/js/searchDictionary.mjs:10-13 | a normalized string has no capital letter and no whitespace at either end, is no longer than its input, and is empty exactly when the input is all whitespace |
| Normalize.NormalizeIdempotent | src/js/searchDictionary.mjs:10-13 | normalizing twice is normalizing once |
| Normalize.StripShape | src/js/searchDictionary.mjs:16-19 | a stripped reading has no digit, no capital, no end whitespace and no two whitespace characters in a row; a string of that shape is its own stripped form, so stripping is idempotent |
| Normalize.ToneDigitsIgnored | src/js/searchDictionary.mjs:16-19 | two readings that differ only in their digits strip to the same string |
| Normalize.StripExample | src/js/searchDictionary.mjs:15-19 | "ni3 hao3" strips to "ni hao", the example the code documents |
| Normalize.ChineseTrimmed | src/js/searchDictionary.mjs:21-23 | `isChineseInput` (some character lies in U+4E00..U+9FFF) answers the same on the trimmed query that `search` tests as on the raw one, because trimming removes no ideograph |
| Normalize.RankMatch | src/js/searchDictionary.mjs:27-35 | the rank is one of 0, 50, 75, 100 |
| Normalize.RankMatchLevels | src/js/searchDictionary.mjs:27-35 | an empty target ranks 0; the rank is 100 exactly when the folded forms are equal, at least 75 exactly when the folded target starts with the folded query, and at least 50 exactly when it contains it |
| Store.BuildIndex | src/js/searchDictionary.mjs:57-68 | the index lists, under each key, every entry whose simplified form and then whose traditional form is that non-empty key, in load order |
| Store.LoadDictionary | src/js/searchDictionary.mjs:50-70 | a loaded store answers with its entries and fetches nothing; an HTTP error fails with its status, an undecodable body fails, and both leave the store empty; a decoded array or object becomes the entries, with a matching index |
| Store.LoadKeepsConsistent | src/js/searchDictionary.mjs:56-68 | loading never breaks the agreement between the entries and the index |
| Store.LoadIdempotent | src/js/searchDictionary.mjs:51 | after one successful load, any later load returns the same entries and leaves the store unchanged |
| Store.ListedAtLeast | src/js/searchDictionary.mjs:59-68 | an entry appears under a key at least as many times as its headwords name that key |
| Store.IndexListsBothForms | src/js/searchDictionary.mjs:59-68 | every entry is listed under its non-empty simplified and its non-empty traditional form, and twice under one key when the two forms are equal |
| Scoring.ReadingScore | src/js/searchDictionary.mjs:109-115 | an empty reading scores 0; a non-empty one scores at least the rank of its stripped form against the stripped query, and, when the query has a tone digit or mark, at least the rank of the folded forms plus 5; it is always one of those two |
| Scoring.ReadingIgnoresToneDigits | src/js/searchDictionary.mjs:109-112 | a reading that equals the query once tone digits are removed, with a non-blank stripped form, scores at least 100 |
| Scoring.EntryIgnoresToneDigits | src/js/searchDictionary.mjs:104-115 | an entry with such a reading scores at least 100 overall |
| Scoring.NiHaoFindsToneDigits | src/js/searchDictionary.mjs:104-115 | an entry whose reading is "ni3 hao3" scores at least 100 for the query "ni hao" |
| Scoring.MaxFromZero | src/js/searchDictionary.mjs:105-115 | the running maximum from 0 is at least every element and is 0 or one of them |
| Scoring.PinyinScore | src/js/searchDictionary.mjs:108-115 | the reading strategy is at least every reading's score and is 0 or one of them |
| Scoring.DefinitionScore | src/js/searchDictionary.mjs:117-124 | the definition strategy is 0, 90, 115 or 140, and positive exactly when the gloss text is non-empty and its folded form contains the folded query |
| Scoring.DefinitionScoreLevels | src/js/searchDictionary.mjs:117-124 | the definition strategy is 140 exactly when the folded gloss text equals the folded query, and at least 115 exactly when it starts with it |
| Scoring.EntryScore | src/js/searchDictionary.mjs:104-130 | an entry's score is at least each strategy's and equal to one of them: the strategies compete and are never added |
| Scoring.PinyinScoreValues | src/js/searchDictionary.mjs:108-115 | the reading strategy takes a rank value, or a rank plus 5 only for a query with a tone digit or mark |
| Scoring.EntryScoreValues | src/js/searchDictionary.mjs:101-130 | every score is one of 0, 5, 50, 55, 60, 75, 80, 90, 100, 105, 115, 140, and the +5 values need a tone digit or mark in the query |
| Scoring.ToneBonusOnMiss | src/js/searchDictionary.mjs:114 | with a tone digit or mark in the query, an entry with any non-empty reading scores at least 5 |
| Scoring.ScoredHits | src/js/searchDictionary.mjs:104-131 | the non-ideographic pass collects exactly the entries with a positive score, each with that score |
| Scoring.HanziHits | src/js/searchDictionary.mjs:94-98 | the hanzi fallback collects exactly the entries whose raw simplified or traditional form contains the query, each at 60 |
| Scoring.ScoredHitsAppend | src/js/searchDictionary.mjs:104-131 | the scan over two blocks of entries is the scan over the first then the second, so hits come in dictionary order |
| Scoring.HanziHitsAppend | src/js/searchDictionary.mjs:94-98 | the hanzi fallback over two blocks is the fallback over the first then the second, so hits come in dictionary order |
| Assemble.DedupKeys | src/js/searchDictionary.mjs:135-139 | dedup keeps one hit per key, covers every key of the candidates, and keeps only candidates |
| Assemble.DedupKeepsFirstBest | src/js/searchDictionary.mjs:135-139 | the hit kept for a key is the first candidate with the highest score for that key |
| Assemble.InsertByScore | src/js/searchDictionary.mjs:140 | inserting a hit adds exactly that hit and drops none |
| Assemble.InsertKeepsSorted | src/js/searchDictionary.mjs:140 | inserting into a list sorted by descending score keeps it sorted |
| Assemble.SortByScore | src/js/searchDictionary.mjs:140 | the sorted hits are in descending score order and are a permutation of the input |
| Assemble.SortKeepsUniqueKeys | src/js/searchDictionary.mjs:140 | sorting keeps the keys pairwise distinct |
| Assemble.SliceEnd | src/js/searchDictionary.mjs:140 | the slice end never passes the list's end |
| Assemble.EffectiveLimit | src/js/searchDictionary.mjs:83 | a missing or zero limit is 20, and any other given limit is used as it is |
| Assemble.Project | src/js/searchDictionary.mjs:143-150 | a result keeps the entry and the score, turns the readings into a list, and turns the glosses into a list in which a missing or empty gloss becomes `[]` |
| Assemble.AssembleProperties | src/js/searchDictionary.mjs:134-150 | the results have pairwise distinct dedup keys and non-increasing scores; each is its key's first best candidate; a positive limit gives min(limit, distinct keys) results, and a negative one drops that many from the end |
| Searching.Search | src/js/searchDictionary.mjs:77-151 | searching fails exactly when nothing is loaded; a blank query gives no results; an exact answer is the index listing of an ideographic query at score 100; ranked results have distinct keys, non-increasing scores and at most a positive limit's count |
| Searching.ExactHanziHits | src/js/searchDictionary.mjs:87-92 | an ideographic query that is an indexed headword returns the entries listed under it in load order, each at 100, whatever the limit |
| Searching.ExactFormFindsEntry | src/js/searchDictionary.mjs:86-92 | searching an ideographic entry's own simplified form returns an exact answer that contains that entry at 100 |
| Searching.HanziFallback | src/js/searchDictionary.mjs:93-98 | an ideographic query that is not an indexed headword ranks only entries whose headword contains it, each at 60 |
| Searching.NonHanziScores | src/js/searchDictionary.mjs:99-131 | for any other query every result is a loaded entry carrying its own positive entry score |
| Searching.LimitRespected | src/js/searchDictionary.mjs:140 | a ranked search with a positive limit returns at most that many results |
| Searching.DefaultLimit | src/js/searchDictionary.mjs:83 | with no limit, or a zero limit, at most 20 results come back |
| Display.FormatEntryForDisplay | src/js/searchDictionary.mjs:197-204 | an exact-hit object, which has none of the read fields, formats to three empty strings |
| Display.FormatProjected | src/js/searchDictionary.mjs:197-204 | a ranked result shows its entry's headword, its readings joined by " / ", and the same gloss text the definition strategy matched |
| Display.ExactHitsShowBlank | src/js/searchDictionary.mjs:197-204 | every card formatted from an exact hanzi search is blank |
| Favorites.GetFavorites | src/js/searchDictionary.mjs:154-163 | a saved list reads back as itself; missing or unparsable storage reads as no favorites |
| Favorites.MakeFavorite | src/js/searchDictionary.mjs:173-179 | a stored record carries the entry's key and headwords; array readings are kept, a single reading becomes a one-item list; array glosses are kept, a single gloss becomes a one-item list, and missing glosses become `[""]` |
| Favorites.AddFavorite | src/js/searchDictionary.mjs:169-183 | when the entry's key is already listed, nothing changes and the list is returned; otherwise the new record is put in front of the list, and that list is saved and returned |
| Favorites.WithoutKey | src/js/searchDictionary.mjs:187 | a record survives the filter exactly when it is not under the removed key |
| Favorites.WithoutKeyAppend | src/js/searchDictionary.mjs:187 | filtering two blocks is filtering each, so survivors keep their order |
| Favorites.RemoveFavorite | src/js/searchDictionary.mjs:185-190 | after a remove, storage holds the returned list, which is the old list filtered by key: nothing is added, no record is under the key, and every other record is kept in its order |
| Favorites.ClearFavorites | src/js/searchDictionary.mjs:192-194 | after a clear, reading the favorites gives none |
| Favorites.AddIdempotent | src/js/searchDictionary.mjs:172 | adding the same entry twice is adding it once |
| Favorites.AddKeepsUniqueKeys | src/js/searchDictionary.mjs:169-183 | an add keeps keys pairwise distinct, and exactly one record then carries the entry's key |
| Favorites.AddKeepsOldList | src/js/searchDictionary.mjs:169-183 | an add either changes nothing or puts the new record in front of the old list, unchanged |
| Favorites.EntryKey | src/js/searchDictionary.mjs:38-42 | the key is the headword (simplified, else traditional, else empty), then "__", then a reading in stripped shape: no digit, no capital, no end or doubled whitespace |
| Favorites.ToneVariantsShareKey | src/js/searchDictionary.mjs:38-42 | entries with the same headword whose first readings differ only in tone digits share a key, so adding the second changes nothing |
| Favorites.WithoutAbsentKey | src/js/searchDictionary.mjs:187 | filtering out a key that is not listed keeps the list as it is |
| Favorites.RemoveUndoesAdd | src/js/searchDictionary.mjs:169-190 | removing the key of a newly added entry restores the list held before the add |
| CedictParser.KeptLines | src/js/cedictParser.mjs:4-6 | a line is kept exactly when it is a line of the text, does not start with `#`, and is not blank |
| CedictParser.KeptLinesAppend | src/js/cedictParser.mjs:4-6 | filtering lines commutes with concatenation, so file order is kept |
| CedictParser.CloseFrom | src/js/cedictParser.mjs:11 | the lazy group closes at the first `]`, unless a line terminator comes first |
| CedictParser.OpenFrom | src/js/cedictParser.mjs:11 | the match opens at the leftmost `[` whose group can close; with none, no `[` can close |
| CedictParser.ParseLine | src/js/cedictParser.mjs:8-20 | the traditional form is the space-free start of the line, and the whole line when it has no space; the simplified form is missing exactly when the line has no space; reading and glosses are strings |
| CedictParser.ParseText | src/js/cedictParser.mjs:4-20 | there is one record per kept line, and the i-th record is the parse of the i-th kept line |
| CedictParser.ParseOneLine | src/js/cedictParser.mjs:4-20 | a one-line text gives that line's record when the line is kept, and nothing otherwise; with the append law this fixes every record of a text |
| CedictParser.ParseTextAppend | src/js/cedictParser.mjs:4-20 | two texts joined by a newline parse to the records of the first followed by those of the second |
| CedictParser.ReadingIsFirstBracket | src/js/cedictParser.mjs:11 | the reading is the text inside the leftmost bracket pair that can close, and empty text when no `[` opens a group that can close |
| CedictParser.HeadwordsAreFirstWords | src/js/cedictParser.mjs:9-10 | the headwords are the text before the first space and the next space-separated word |
| CedictParser.DefinitionsBetweenSlashes | src/js/cedictParser.mjs:12 | the glosses are the text between the first and the last `/`, each inner `/` shown as "; " |
| CedictParser.FewSlashesNoDefinitions | src/js/cedictParser.mjs:12 | a line with at most one `/` has empty glosses |
| CedictParser.LineFilter | src/js/cedictParser.mjs:6 | comment lines and blank lines are dropped, and `%` lines are kept |
| ConvertCedict.MatchLine | src/js/convertCedict.mjs:17 | the four groups of a match are non-empty; the headwords hold no whitespace, the reading no `]`, and the glosses no line terminator |
| ConvertCedict.MatchSound | src/js/convertCedict.mjs:17 | every matched line is its groups laid out with whitespace as the pattern requires |
| ConvertCedict.MatchComplete | src/js/convertCedict.mjs:17 | every line of that layout is matched, with exactly its groups |
| ConvertCedict.ToEntry | src/js/convertCedict.mjs:29-35 | the pushed entry keeps both headwords and the reading, and its `/`-free glosses join back with `/` into the last group |
| ConvertCedict.ConvertLine | src/js/convertCedict.mjs:21-36 | a `#`, `%` or blank line gives no entry; any other line gives an entry exactly when the pattern matches it, and that entry is the one built from the match's groups, with non-empty, whitespace-free headwords, a reading, and a non-empty gloss list |
| ConvertCedict.SkippedLines | src/js/convertCedict.mjs:23 | lines starting with `#` or `%`, and lines of only white space, give no entry |
| ConvertCedict.CommentedRecordSkipped | src/js/convertCedict.mjs:17-24 | the commented-out record "#a b [c] /d/" fits the pattern with groups "#a", "b", "c", "d", yet gives no entry |
| ConvertCedict.ConvertLines | src/js/convertCedict.mjs:21-37 | the converter yields at most one entry per line, each well formed |
| ConvertCedict.ConvertOneLine | src/js/convertCedict.mjs:14-37 | a one-line file gives that line's converted entry, or nothing; with the append law this fixes the entries of a file, in line order |
| ConvertCedict.ConvertAppend | src/js/convertCedict.mjs:14-37 | two files joined by a newline convert to the entries of the first followed by those of the second |
| ConvertCedict.ConvertRoundTrip | src/js/convertCedict.mjs:17-35 | a line laid out from groups, which does not open like a comment, converts back to their entry |
| ConvertCedict.PercentLinesDisagree | src/js/convertCedict.mjs:23 | a `%` line is dropped by the converter but kept by the browser-side reader |

## Left out

- Network, file and storage input and output are parameters: the fetched response (`Store.Fetched`), the read text, and the stored favorites blob (`Favorites.Blob`). Asynchrony, and calls that overlap while a load is in flight, are not modelled.
- Writing the JSON file, `console.error` and the error text thrown by `search` are not modelled.
- JSON encoding is taken to round-trip the records the code writes. Storage holding JSON that is not an array is not modelled; the code would fail on it at `fav.find`.
- Normalize.NormalizeString: `normalize("NFC")` is the identity and `toLowerCase` folds only ASCII capitals. Neither Unicode normalization nor full case mapping is modelled.
- Store.LoadDictionary: the order of `Object.values` for an object payload is taken as the given sequence. The rule that integer-like keys come first is not modelled.
- Searching.Search: the limit is a whole number or missing. Fractional, `NaN` or non-numeric limits are not modelled.
- Searching.Search: a query that is not a string is not modelled, nor an entry field of another JSON type.
- Assemble.SortByScore: the contract states order and permutation but not stability. Equal scores keep dedup order in the code, and the model does not state that.
- The UI, flashcards, phrase generator, image search and build configuration files are not part of this model.

=== FILE: assemble.dfy ===
/** Result assembly at the end of `search`: keep one hit per identity key
    (the first of the highest score), sort by score, cut to the limit and
    project each hit into the shape the page displays. */
module Assemble {

  import opened Wrappers
  import opened Entries
  import opened Scoring

  /** The raw first reading as string concatenation renders it: the head of
      a reading list, or the bare reading, or empty text when it is missing;
      the head of an empty list is undefined and prints as "undefined". */
  function RawFirstReading(f: Field): string {
    match f
    case Arr(xs) => if |xs| > 0 then xs[0] else "undefined"
    case Str(s) => s
    case Absent => []
  }

  /** The identity key of the assembly step: headword, "|", raw first
      reading (tone digits kept). */
  function DedupKey(e: Entry): string {
    HeadForm(e) + "|" + RawFirstReading(e.pinyin)
  }

  function KeyOf(h: Hit): string {
    DedupKey(h.entry)
  }

  ghost predicate UniqueKeys(hs: seq<Hit>) {
    forall i, j :: 0 <= i < j < |hs| ==> KeyOf(hs[i]) != KeyOf(hs[j])
  }

  ghost function KeySet(hs: seq<Hit>): set<string> {
    set h | h in hs :: KeyOf(h)
  }

  /** Where the map holds key `k`, if anywhere. */
  function FindKey(acc: seq<Hit>, k: string): (r: Option<nat>)
    ensures r.Some? ==> r.value < |acc| && KeyOf(acc[r.value]) == k
    ensures r.None? ==> forall i :: 0 <= i < |acc| ==> KeyOf(acc[i]) != k
  {
    if acc == [] then None
    else if KeyOf(acc[0]) == k then Some(0)
    else match FindKey(acc[1..], k)
      case None => None
      case Some(i) => Some(i + 1)
  }

  /** One candidate offered to the insertion-ordered map of kept hits: a new
      key is appended; a known key keeps its place and takes the hit only on
      a strictly higher score. */
  function Upsert(acc: seq<Hit>, h: Hit): seq<Hit> {
    match FindKey(acc, KeyOf(h))
    case None => acc + [h]
    case Some(j) => if acc[j].score < h.score then acc[j := h] else acc
  }

  /** The insertion-ordered map `unique` after every candidate was offered. */
  function Dedup(hits: seq<Hit>): seq<Hit>
    decreases |hits|
  {
    if hits == [] then [] else Upsert(Dedup(hits[..|hits| - 1]), hits[|hits| - 1])
  }

  /** Offering one hit keeps the keys distinct, adds its key and brings in no
      other hit. */
  lemma UpsertKeys(acc: seq<Hit>, h: Hit)
    requires UniqueKeys(acc)
    ensures UniqueKeys(Upsert(acc, h))
    ensures KeySet(Upsert(acc, h)) == KeySet(acc) + {KeyOf(h)}
    ensures forall x :: x in Upsert(acc, h) ==> x in acc || x == h
  {
    var r := Upsert(acc, h);
    match FindKey(acc, KeyOf(h))
    case None =>
      assert forall x :: x in r <==> x in acc || x == h;
    case Some(j) =>
      if acc[j].score < h.score {
        forall x | x in acc
          ensures KeyOf(x) in KeySet(r)
        {
          var i :| 0 <= i < |acc| && acc[i] == x;
          if i == j { assert KeyOf(r[j]) == KeyOf(x); } else { assert r[i] == x; }
        }
        assert forall x :: x in r ==> x in acc || x == h;
      }
  }

  /** The members and keys of `hs + [h]`. */
  lemma SnocMembers(hs: seq<Hit>, h: Hit)
    ensures forall x :: x in hs + [h] <==> x in hs || x == h
    ensures KeySet(hs + [h]) == KeySet(hs) + {KeyOf(h)}
  {
    assert forall x :: x in hs + [h] <==> x in hs || x == h;
  }

  /** No two kept hits share a key, every candidate key is kept, and only
      candidates are kept. */
  lemma {:induction false} DedupKeys(hits: seq<Hit>)
    ensures UniqueKeys(Dedup(hits))
    ensures KeySet(Dedup(hits)) == KeySet(hits)
    ensures forall x :: x in Dedup(hits) ==> x in hits
    decreases |hits|
  {
    if hits != [] {
      var pre := hits[..|hits| - 1];
      var h := hits[|hits| - 1];
      var d := Dedup(pre);
      assert hits == pre + [h];
      assert Dedup(hits) == Upsert(d, h);
      DedupKeys(pre);
      UpsertKeys(d, h);
      SnocMembers(pre, h);
      assert KeySet(hits) == KeySet(pre) + {KeyOf(h)};
    }
  }

  /** `hits[j]` is the first hit of the highest score among those sharing its key. */
  ghost predicate FirstBest(hits: seq<Hit>, j: int) {
    && 0 <= j < |hits|
    && forall m :: 0 <= m < |hits| && KeyOf(hits[m]) == KeyOf(hits[j]) ==>
         hits[m].score <= hits[j].score && (m < j ==> hits[m].score < hits[j].score)
  }

  /** `x` is, for its key, the first candidate of the highest score. */
  ghost predicate IsFirstBest(hits: seq<Hit>, x: Hit) {
    exists j :: FirstBest(hits, j) && hits[j] == x
  }

  /** Every kept hit is, for its key, the first candidate of the highest score. */
  ghost predicate KeepsFirstBest(hits: seq<Hit>, kept: seq<Hit>) {
    forall i :: 0 <= i < |kept| ==> IsFirstBest(hits, kept[i])
  }

  /** Appending a candidate of another key keeps an earlier winner a winner. */
  lemma FirstBestExtend(pre: seq<Hit>, h: Hit, j: int)
    requires FirstBest(pre, j) && KeyOf(h) != KeyOf(pre[j])
    ensures FirstBest(pre + [h], j)
  {
  }

  lemma UpsertKeepsFirstBest(pre: seq<Hit>, acc: seq<Hit>, h: Hit)
    requires UniqueKeys(acc) && KeySet(acc) == KeySet(pre)
    requires KeepsFirstBest(pre, acc)
    ensures KeepsFirstBest(pre + [h], Upsert(acc, h))
  {
    var hits := pre + [h];
    var r := Upsert(acc, h);
    var n := |pre|;
    match FindKey(acc, KeyOf(h))
    case None =>
      assert KeyOf(h) !in KeySet(pre);
      forall i | 0 <= i < |r|
        ensures IsFirstBest(hits, r[i])
      {
        if i < |acc| {
          var j :| FirstBest(pre, j) && pre[j] == acc[i];
          FirstBestExtend(pre, h, j);
          assert hits[j] == r[i];
        } else {
          forall m | 0 <= m < n
            ensures KeyOf(hits[m]) != KeyOf(h)
          {
            assert pre[m] in pre;
          }
          assert FirstBest(hits, n) && hits[n] == r[i];
        }
      }
    case Some(k) =>
      var jk :| FirstBest(pre, jk) && pre[jk] == acc[k];
      assert |r| == |acc|;
      forall i | 0 <= i < |r|
        ensures IsFirstBest(hits, r[i])
      {
        if i != k {
          assert r[i] == acc[i];
          var j :| FirstBest(pre, j) && pre[j] == acc[i];
          assert KeyOf(acc[i]) != KeyOf(acc[k]);
          FirstBestExtend(pre, h, j);
          assert hits[j] == r[i];
        } else if acc[k].score < h.score {
          assert r[i] == h;
          assert FirstBest(hits, n) && hits[n] == r[i];
        } else {
          assert r[i] == acc[k];
          assert FirstBest(hits, jk) && hits[jk] == r[i];
        }
      }
  }

  /** Each key keeps its first highest-scoring hit. */
  lemma {:induction false} DedupKeepsFirstBest(hits: seq<Hit>)
    ensures KeepsFirstBest(hits, Dedup(hits))
    decreases |hits|
  {
    if hits != [] {
      var pre := hits[..|hits| - 1];
      var h := hits[|hits| - 1];
      assert hits == pre + [h];
      DedupKeepsFirstBest(pre);
      DedupKeys(pre);
      UpsertKeepsFirstBest(pre, Dedup(pre), h);
    }
  }

  ghost predicate SortedByScore(hs: seq<Hit>) {
    forall i, j :: 0 <= i < j < |hs| ==> hs[i].score >= hs[j].score
  }

  /** Places `h` before the first hit that does not outscore it. */
  function InsertByScore(h: Hit, hs: seq<Hit>): (r: seq<Hit>)
    ensures multiset(r) == multiset(hs) + multiset{h}
  {
    if hs == [] || hs[0].score <= h.score then [h] + hs
    else
      assert hs == [hs[0]] + hs[1..];
      [hs[0]] + InsertByScore(h, hs[1..])
  }

  /** The hits after insertion are the old ones and `h`. */
  lemma InsertMembers(h: Hit, hs: seq<Hit>)
    ensures forall x :: x in InsertByScore(h, hs) <==> x == h || x in hs
  {
    var r := InsertByScore(h, hs);
    assert forall x :: x in r <==> x in multiset(r);
  }

  /** A sorted list is led by its best score and sorted after its head. */
  lemma SortedParts(hs: seq<Hit>)
    requires SortedByScore(hs) && hs != []
    ensures SortedByScore(hs[1..])
    ensures forall y :: y in hs ==> y.score <= hs[0].score
  {
    assert forall i :: 1 <= i < |hs| ==> hs[1..][i - 1] == hs[i];
  }

  /** A hit at least as good as every hit of a sorted list may lead it. */
  lemma ConsKeepsSorted(x: Hit, hs: seq<Hit>)
    requires SortedByScore(hs)
    requires forall y :: y in hs ==> y.score <= x.score
    ensures SortedByScore([x] + hs)
  {
    var r := [x] + hs;
    forall i, j | 0 <= i < j < |r|
      ensures r[i].score >= r[j].score
    {
      assert r[j] == hs[j - 1];
      if i == 0 {
        assert hs[j - 1] in hs;
      } else {
        assert r[i] == hs[i - 1];
      }
    }
  }

  /** Inserting into a list sorted by descending score keeps it sorted. */
  lemma {:induction false} InsertKeepsSorted(h: Hit, hs: seq<Hit>)
    requires SortedByScore(hs)
    ensures SortedByScore(InsertByScore(h, hs))
    decreases |hs|
  {
    if hs == [] {
      ConsKeepsSorted(h, hs);
    } else {
      SortedParts(hs);
      if hs[0].score <= h.score {
        ConsKeepsSorted(h, hs);
      } else {
        var tail := hs[1..];
        assert hs == [hs[0]] + tail;
        InsertKeepsSorted(h, tail);
        InsertMembers(h, tail);
        ConsKeepsSorted(hs[0], InsertByScore(h, tail));
      }
    }
  }

  /** The stable sort by descending score: scores non-increasing, the same
      hits. (Built by insertion; earlier hits stay first among equal scores.) */
  function SortByScore(hs: seq<Hit>): (r: seq<Hit>)
    ensures SortedByScore(r)
    ensures multiset(r) == multiset(hs)
  {
    if hs == [] then []
    else
      assert hs == [hs[0]] + hs[1..];
      var rest := SortByScore(hs[1..]);
      InsertKeepsSorted(hs[0], rest);
      InsertByScore(hs[0], rest)
  }

  /** Sorting neither adds nor drops a hit. */
  lemma SortMembers(hs: seq<Hit>)
    ensures |SortByScore(hs)| == |hs|
    ensures forall x :: x in SortByScore(hs) <==> x in hs
  {
    var r := SortByScore(hs);
    assert |multiset(r)| == |multiset(hs)|;
    assert forall x :: x in r <==> x in multiset(r);
  }

  /** Putting a hit of a new key in front keeps the keys distinct. */
  lemma ConsKeepsUniqueKeys(x: Hit, hs: seq<Hit>)
    requires UniqueKeys(hs)
    requires forall y :: y in hs ==> KeyOf(y) != KeyOf(x)
    ensures UniqueKeys([x] + hs)
  {
    var r := [x] + hs;
    forall i, j | 0 <= i < j < |r|
      ensures KeyOf(r[i]) != KeyOf(r[j])
    {
      assert r[j] == hs[j - 1];
      if i == 0 {
        assert hs[j - 1] in hs;
      } else {
        assert r[i] == hs[i - 1];
      }
    }
  }

  /** After the head, the keys stay distinct and differ from the head's. */
  lemma UniqueParts(hs: seq<Hit>)
    requires UniqueKeys(hs) && hs != []
    ensures UniqueKeys(hs[1..])
    ensures forall x :: x in hs[1..] ==> KeyOf(x) != KeyOf(hs[0])
  {
    var tail := hs[1..];
    assert forall i :: 0 <= i < |tail| ==> tail[i] == hs[i + 1];
  }

  /** Inserting a hit of a new key keeps the keys distinct. */
  lemma {:induction false} InsertKeepsUniqueKeys(h: Hit, hs: seq<Hit>)
    requires UniqueKeys(hs)
    requires forall x :: x in hs ==> KeyOf(x) != KeyOf(h)
    ensures UniqueKeys(InsertByScore(h, hs))
    decreases |hs|
  {
    if hs == [] || hs[0].score <= h.score {
      ConsKeepsUniqueKeys(h, hs);
    } else {
      var tail := hs[1..];
      UniqueParts(hs);
      assert hs == [hs[0]] + tail;
      InsertKeepsUniqueKeys(h, tail);
      InsertMembers(h, tail);
      ConsKeepsUniqueKeys(hs[0], InsertByScore(h, tail));
    }
  }

  /** Sorting keeps the keys distinct. */
  lemma {:induction false} SortKeepsUniqueKeys(hs: seq<Hit>)
    requires UniqueKeys(hs)
    ensures UniqueKeys(SortByScore(hs))
    decreases |hs|
  {
    if hs != [] {
      var tail := hs[1..];
      UniqueParts(hs);
      SortKeepsUniqueKeys(tail);
      SortMembers(tail);
      InsertKeepsUniqueKeys(hs[0], SortByScore(tail));
    }
  }

  /** Where a prefix slice of `n` items ends for a whole-number limit: a
      negative limit counts back from the end. */
  function SliceEnd(n: nat, limit: int): (e: nat)
    ensures e <= n
  {
    if limit >= 0 then (if limit < n then limit else n)
    else if n + limit > 0 then n + limit else 0
  }

  /** The limit in force: a missing or zero limit falls back to 20. */
  function EffectiveLimit(limit: Option<int>): (l: int)
    ensures l != 0
    ensures limit.None? ==> l == 20
    ensures limit == Some(0) ==> l == 20
    ensures limit.Some? && limit.value != 0 ==> l == limit.value
  {
    if limit.None? || limit.value == 0 then 20 else limit.value
  }

  /** The display-ready shape of one search result. */
  datatype SearchResult = SearchResult(
    simplified: Option<string>,
    traditional: Option<string>,
    pinyin: seq<string>,
    definitions: seq<string>,
    raw: Entry,
    score: int)

  /** The projection of a hit: readings and glosses become lists, a missing
      (or empty) gloss becomes the empty list. */
  function Project(h: Hit): (r: SearchResult)
    ensures r.raw == h.entry && r.score == h.score
    ensures r.simplified == h.entry.simplified && r.traditional == h.entry.traditional
    ensures r.pinyin == AsList(h.entry.pinyin)
    ensures r.definitions == GlossList(h.entry.definitions)
    ensures h.entry.definitions.Absent? ==> r.definitions == []
  {
    SearchResult(h.entry.simplified, h.entry.traditional, AsList(h.entry.pinyin),
                 GlossList(h.entry.definitions), h.entry, h.score)
  }

  function ProjectAll(hs: seq<Hit>): (r: seq<SearchResult>)
    ensures |r| == |hs|
    ensures forall i :: 0 <= i < |hs| ==> r[i] == Project(hs[i])
  {
    if hs == [] then [] else [Project(hs[0])] + ProjectAll(hs[1..])
  }

  /** Dedup, sort, cut to the limit, project. */
  function AssembleResults(hits: seq<Hit>, limit: int): seq<SearchResult> {
    var sorted := SortByScore(Dedup(hits));
    ProjectAll(sorted[..SliceEnd(|sorted|, limit)])
  }

  /** What the caller gets back: no two results share the identity key, each
      key keeps its first highest-scoring candidate, scores never increase,
      and a positive limit bounds the length (it is reached whenever there
      are that many distinct keys). */
  lemma AssembleProperties(hits: seq<Hit>, limit: int)
    ensures var r := AssembleResults(hits, limit);
      && (forall i, j :: 0 <= i < j < |r| ==> DedupKey(r[i].raw) != DedupKey(r[j].raw))
      && (forall i, j :: 0 <= i < j < |r| ==> r[i].score >= r[j].score)
      && (forall i :: 0 <= i < |r| ==> IsFirstBest(hits, Hit(r[i].raw, r[i].score)))
      && (limit > 0 ==> |r| == if limit < |Dedup(hits)| then limit else |Dedup(hits)|)
      && (limit < 0 ==> |r| == if |Dedup(hits)| + limit > 0 then |Dedup(hits)| + limit else 0)
  {
    var sorted := SortByScore(Dedup(hits));
    SortedDedupFacts(hits);
    var e := SliceEnd(|sorted|, limit);
    PrefixKeeps(hits, sorted, e);
    ProjectProperties(hits, sorted[..e]);
    assert AssembleResults(hits, limit) == ProjectAll(sorted[..e]);
    assert |ProjectAll(sorted[..e])| == e;
  }

  /** The sorted, deduplicated hits: distinct keys, non-increasing scores,
      one per key, each its key's first best. */
  lemma SortedDedupFacts(hits: seq<Hit>)
    ensures var s := SortByScore(Dedup(hits));
      && UniqueKeys(s) && SortedByScore(s) && |s| == |Dedup(hits)|
      && forall x :: x in s ==> IsFirstBest(hits, x)
  {
    var d := Dedup(hits);
    DedupKeys(hits);
    DedupKeepsFirstBest(hits);
    SortKeepsUniqueKeys(d);
    SortMembers(d);
    forall x | x in SortByScore(d)
      ensures IsFirstBest(hits, x)
    {
      var k :| 0 <= k < |d| && d[k] == x;
    }
  }

  /** A prefix of a sorted list of distinct keys is one too. */
  lemma PrefixKeeps(hits: seq<Hit>, hs: seq<Hit>, e: nat)
    requires UniqueKeys(hs) && SortedByScore(hs) && e <= |hs|
    requires forall x :: x in hs ==> IsFirstBest(hits, x)
    ensures UniqueKeys(hs[..e]) && SortedByScore(hs[..e])
    ensures forall x :: x in hs[..e] ==> IsFirstBest(hits, x)
  {
    assert forall x :: x in hs[..e] ==> x in hs;
  }

  /** Projection carries the key, score and winner properties over to the
      results. */
  lemma ProjectProperties(hits: seq<Hit>, cut: seq<Hit>)
    requires UniqueKeys(cut) && SortedByScore(cut)
    requires forall x :: x in cut ==> IsFirstBest(hits, x)
    ensures var r := ProjectAll(cut);
      && (forall i, j :: 0 <= i < j < |r| ==> DedupKey(r[i].raw) != DedupKey(r[j].raw))
      && (forall i, j :: 0 <= i < j < |r| ==> r[i].score >= r[j].score)
      && (forall i :: 0 <= i < |r| ==> IsFirstBest(hits, Hit(r[i].raw, r[i].score)))
  {
    var r := ProjectAll(cut);
    forall i | 0 <= i < |r|
      ensures IsFirstBest(hits, Hit(r[i].raw, r[i].score))
    {
      assert Hit(r[i].raw, r[i].score) == cut[i];
      assert cut[i] in cut;
    }
  }
}

=== FILE: cedict_parser.dfy ===
/** `loadCedict`: the browser-side reader of raw CC-CEDICT text, which cuts
    each line with plain string splits rather than a full pattern. */
module CedictParser {

  import opened Wrappers
  import opened Text
  import opened Entries

  /** A line is read unless it opens with `#` or holds only white space. */
  predicate KeepLine(line: string) {
    !("#" <= line) && Trim(line) != []
  }

  function KeptLines(lines: seq<string>): (r: seq<string>)
    ensures |r| <= |lines|
    ensures forall l :: l in r <==> l in lines && KeepLine(l)
  {
    if lines == [] then []
    else (if KeepLine(lines[0]) then [lines[0]] else []) + KeptLines(lines[1..])
  }

  /** Keeping lines commutes with concatenating blocks of text, so the kept
      lines stay in file order. */
  lemma {:induction false} KeptLinesAppend(a: seq<string>, b: seq<string>)
    ensures KeptLines(a + b) == KeptLines(a) + KeptLines(b)
    decreases |a|
  {
    if a != [] {
      assert (a + b)[1..] == a[1..] + b;
      KeptLinesAppend(a[1..], b);
    } else {
      assert a + b == b;
    }
  }

  // ---- The reading: the lazy group between the first `[` and a `]` ----

  /** The text from `j` up to a `]` at `k` could be the lazy group: `.`
      matches anything but a line terminator. */
  predicate Unclosed(line: string, j: nat)
    requires j <= |line|
  {
    forall k :: j <= k < |line| && line[k] == ']' ==> !NoLineTerminator(line[j..k])
  }

  /** The first `]` at or after `j`, unless a line terminator comes first. */
  function CloseFrom(line: string, j: nat): (r: Option<nat>)
    requires j <= |line|
    ensures r.Some? ==> j <= r.value < |line| && line[r.value] == ']'
    ensures r.Some? ==> ']' !in line[j..r.value] && NoLineTerminator(line[j..r.value])
    ensures r.None? <==> Unclosed(line, j)
    decreases |line| - j
  {
    if j == |line| then None
    else if line[j] == ']' then Some(j)
    else if IsLineTerminator(line[j]) then
      assert forall k :: j < k < |line| ==> line[j..k][0] == line[j];
      None
    else
      var r := CloseFrom(line, j + 1);
      assert forall k :: j < k <= |line| ==> line[j..k] == [line[j]] + line[j + 1..k];
      r
  }

  /** The leftmost `[` at or after `i` whose lazy group closes, and the `]`
      that closes it. */
  function OpenFrom(line: string, i: nat): (r: Option<(nat, nat)>)
    requires i <= |line|
    ensures r.Some? ==> var (o, c) := r.value;
      && i <= o < c < |line| && line[o] == '[' && line[c] == ']'
      && ']' !in line[o + 1..c] && NoLineTerminator(line[o + 1..c])
      && forall o' :: i <= o' < o && line[o'] == '[' ==> Unclosed(line, o' + 1)
    ensures r.None? ==> forall o' :: i <= o' < |line| && line[o'] == '[' ==> Unclosed(line, o' + 1)
    decreases |line| - i
  {
    if i == |line| then None
    else if line[i] == '[' && CloseFrom(line, i + 1).Some? then
      Some((i, CloseFrom(line, i + 1).value))
    else OpenFrom(line, i + 1)
  }

  /** The first bracketed reading, or the empty string when none closes. */
  function BracketReading(line: string): string {
    match OpenFrom(line, 0)
    case Some((o, c)) => line[o + 1..c]
    case None => []
  }

  /** The pieces between the first and the last `/`, joined by "; "; no
      text when the line has fewer than two slashes. */
  function Definitions(line: string): string {
    var ps := Split(line, '/');
    if |ps| <= 2 then [] else Join(ps[1..|ps| - 1], "; ")
  }

  /** The record built for one kept line: first and second space-separated
      words, the bracketed reading, and the glosses as one string. */
  function ParseLine(line: string): (e: Entry)
    ensures e.traditional.Some? && ' ' !in e.traditional.value
    ensures e.traditional.value <= line
    ensures e.simplified.None? <==> ' ' !in line
    ensures ' ' !in line ==> e.traditional == Some(line)
    ensures e.pinyin.Str? && e.definitions.Str?
  {
    var words := Split(line, ' ');
    SplitFirstPiece(line, ' ');
    Entry(simplified := if |words| > 1 then Some(words[1]) else None,
          traditional := Some(words[0]),
          pinyin := Str(BracketReading(line)),
          definitions := Str(Definitions(line)))
  }

  /** The first piece of a split is the text before the first separator, or
      all of it. */
  lemma SplitFirstPiece(s: string, c: char)
    ensures match IndexOf(s, c)
      case Some(k) => Split(s, c)[0] == s[..k] && |Split(s, c)| > 1
      case None => Split(s, c) == [s]
  {
    match IndexOf(s, c)
    case Some(k) =>
      assert s == s[..k] + [c] + s[k + 1..];
      SplitAtFirst(s[..k], c, s[k + 1..]);
    case None =>
      SplitWhole(s, c);
  }

  /** `loadCedict` once the text is in hand. */
  function ParseText(raw: string): (r: seq<Entry>)
    ensures |r| == |KeptLines(Split(raw, '\n'))|
    ensures forall i :: 0 <= i < |r| ==> r[i] == ParseLine(KeptLines(Split(raw, '\n'))[i])
  {
    var kept := KeptLines(Split(raw, '\n'));
    seq(|kept|, i requires 0 <= i < |kept| => ParseLine(kept[i]))
  }

  /** A text of one line gives that line's record, or nothing when the line
      is a comment or blank. */
  lemma ParseOneLine(line: string)
    requires '\n' !in line
    ensures ParseText(line) == if KeepLine(line) then [ParseLine(line)] else []
  {
    SplitWhole(line, '\n');
  }

  /** Two blocks of text joined by a newline parse to the records of the
      first followed by those of the second. */
  lemma ParseTextAppend(a: string, b: string)
    ensures ParseText(a + "\n" + b) == ParseText(a) + ParseText(b)
  {
    SplitConcat(a, '\n', b);
    KeptLinesAppend(Split(a, '\n'), Split(b, '\n'));
  }

  /** `[` at `o` and `]` at `c` delimit the leftmost group that can close. */
  predicate ClosingPair(line: string, o: nat, c: nat) {
    && o < c < |line| && line[o] == '[' && line[c] == ']'
    && ']' !in line[o + 1..c] && NoLineTerminator(line[o + 1..c])
    && forall o' :: 0 <= o' < o && line[o'] == '[' ==> Unclosed(line, o' + 1)
  }

  /** No `[` of the line opens a group that can close. */
  predicate NoClosingPair(line: string) {
    forall o :: 0 <= o < |line| && line[o] == '[' ==> Unclosed(line, o + 1)
  }

  /** The reading is the text inside the leftmost bracket pair whose lazy
      group can close; a line without one gives the empty string. */
  lemma ReadingIsFirstBracket(line: string)
    ensures forall o: nat, c: nat :: ClosingPair(line, o, c) ==>
      ParseLine(line).pinyin == Str(line[o + 1..c])
    ensures NoClosingPair(line) ==> ParseLine(line).pinyin == Str([])
  {
    forall o: nat, c: nat | ClosingPair(line, o, c)
      ensures ParseLine(line).pinyin == Str(line[o + 1..c])
    {
      FirstBracketFound(line, o, c);
    }
    var r := OpenFrom(line, 0);
    assert r.Some? ==> !Unclosed(line, r.value.0 + 1);
  }

  /** The scan for the lazy group stops at that pair. */
  lemma FirstBracketFound(line: string, o: nat, c: nat)
    requires ClosingPair(line, o, c)
    ensures OpenFrom(line, 0) == Some((o, c))
  {
    assert forall k :: o + 1 <= k < c ==> line[o + 1..c][k - o - 1] == line[k];
    OpenFromFinds(line, 0, o, c);
  }

  /** From `j`, the lazy group closes at the first `]` when no line
      terminator comes before it. */
  lemma {:induction false} CloseFromFinds(line: string, j: nat, c: nat)
    requires j <= c < |line| && line[c] == ']'
    requires forall k :: j <= k < c ==> line[k] != ']' && !IsLineTerminator(line[k])
    ensures CloseFrom(line, j) == Some(c)
    decreases c - j
  {
    if j < c {
      CloseFromFinds(line, j + 1, c);
    }
  }

  /** From `i`, the scan passes every `[` whose group cannot close and stops
      at the first that can. */
  lemma {:induction false} OpenFromFinds(line: string, i: nat, o: nat, c: nat)
    requires i <= o < c < |line| && line[o] == '[' && line[c] == ']'
    requires forall k :: o + 1 <= k < c ==> line[k] != ']' && !IsLineTerminator(line[k])
    requires forall o' :: i <= o' < o && line[o'] == '[' ==> Unclosed(line, o' + 1)
    ensures OpenFrom(line, i) == Some((o, c))
    decreases o - i
  {
    if i == o {
      CloseFromFinds(line, o + 1, c);
    } else {
      OpenFromFinds(line, i + 1, o, c);
      if line[i] == '[' {
        assert Unclosed(line, i + 1);
      }
    }
  }

  /** The first two words are the text before the first space and the text
      between the first and second spaces. */
  lemma HeadwordsAreFirstWords(line: string, k: nat)
    requires k < |line| && line[k] == ' ' && ' ' !in line[..k]
    ensures ParseLine(line).traditional == Some(line[..k])
    ensures ParseLine(line).simplified == Some(Split(line[k + 1..], ' ')[0])
  {
    assert line == line[..k] + [' '] + line[k + 1..];
    SplitAtFirst(line[..k], ' ', line[k + 1..]);
  }

  /** The glosses are the text strictly between the first and the last `/`,
      each inner `/` shown as "; ". */
  lemma DefinitionsBetweenSlashes(line: string, f: nat, l: nat)
    requires f < l < |line| && line[f] == '/' && line[l] == '/'
    requires '/' !in line[..f] && '/' !in line[l + 1..]
    ensures ParseLine(line).definitions == Str(Join(Split(line[f + 1..l], '/'), "; "))
  {
    var pre, mid, post := line[..f], line[f + 1..l], line[l + 1..];
    assert line == pre + ['/'] + (mid + ['/'] + post);
    SplitAtFirst(pre, '/', mid + ['/'] + post);
    SplitConcat(mid, '/', post);
    SplitWhole(post, '/');
    var ps := Split(line, '/');
    assert ps == [pre] + Split(mid, '/') + [post];
    assert ps[1..|ps| - 1] == Split(mid, '/');
  }

  /** A line with at most one `/` has no glosses. */
  lemma FewSlashesNoDefinitions(line: string)
    requires forall i, j :: 0 <= i < j < |line| && line[i] == '/' ==> line[j] != '/'
    ensures ParseLine(line).definitions == Str([])
  {
    match IndexOf(line, '/')
    case None =>
      SplitWhole(line, '/');
    case Some(f) =>
      var pre, post := line[..f], line[f + 1..];
      assert '/' !in post by {
        forall k | 0 <= k < |post| ensures post[k] != '/' {
          assert post[k] == line[f + 1 + k];
        }
      }
      assert line == pre + ['/'] + post;
      SplitAtFirst(pre, '/', post);
      SplitWhole(post, '/');
  }

  /** Comment lines and blank lines give no record; a `%` line is kept. */
  lemma LineFilter(line: string)
    ensures "#" <= line ==> !KeepLine(line)
    ensures AllSpace(line) ==> !KeepLine(line)
    ensures "%" <= line ==> KeepLine(line)
  {
    TrimEmpty(line);
    if "%" <= line {
      assert !IsSpace(line[0]);
      assert !AllSpace(line);
    }
  }
}

=== FILE: convert_cedict.dfy ===
/** The build-time converter from raw CC-CEDICT text to the entry list the
    browser loads: each line is skipped, or matched as two words, a
    bracketed reading and a slash-delimited gloss group, and turned into an
    entry whose glosses are split on `/`. */
module ConvertCedict {

  import opened Wrappers
  import opened Text
  import opened Entries
  import CedictParser

  /** Comment lines (`#`), `%` lines and lines of only white space are
      skipped. */
  predicate SkipLine(line: string) {
    "#" <= line || "%" <= line || Trim(line) == []
  }

  /** The four capture groups of the pattern. */
  datatype Parts = Parts(trad: string, simp: string, pinyin: string, defs: string)

  // ---- maximal runs, as the pattern's greedy classes take them ----

  predicate NotSpace(c: char) { !IsSpace(c) }

  predicate NotClose(c: char) { c != ']' }

  /** Length of the leading run of characters satisfying `P`: what a
      greedy `P+` consumes. */
  function Run(s: string, P: char -> bool): (n: nat)
    ensures n <= |s|
    ensures forall i :: 0 <= i < n ==> P(s[i])
    ensures n == |s| || !P(s[n])
  {
    if s == [] || !P(s[0]) then 0 else 1 + Run(s[1..], P)
  }

  /** A run stops no later than the first character outside it. */
  lemma {:induction false} RunStops(s: string, P: char -> bool, k: nat)
    requires k < |s| && !P(s[k])
    ensures Run(s, P) <= k
    decreases k
  {
    if P(s[0]) {
      RunStops(s[1..], P, k - 1);
    }
  }

  /** A run reaches at least as far as any prefix inside it. */
  lemma {:induction false} RunCovers(s: string, P: char -> bool, k: nat)
    requires k <= |s| && forall i :: 0 <= i < k ==> P(s[i])
    ensures Run(s, P) >= k
    decreases k
  {
    if k > 0 {
      RunCovers(s[1..], P, k - 1);
    }
  }

  /** The run of `x + y` is exactly `x` when `x` lies inside the class and
      `y` does not start in it. */
  lemma RunOf(x: string, y: string, P: char -> bool)
    requires forall i :: 0 <= i < |x| ==> P(x[i])
    requires y == [] || !P(y[0])
    ensures Run(x + y, P) == |x|
  {
    RunCovers(x + y, P, |x|);
    if y != [] {
      RunStops(x + y, P, |x|);
    }
  }

  /** Trailing whitespace after a non-whitespace end is exactly what
      `TrimEnd` removes. */
  lemma {:induction false} TrimEndOf(x: string, w: string)
    requires x != [] && !IsSpace(x[|x| - 1]) && AllSpace(w)
    ensures TrimEnd(x + w) == x
    decreases |w|
  {
    if w == [] {
      assert x + w == x;
    } else {
      assert (x + w)[..|x + w| - 1] == x + w[..|w| - 1];
      TrimEndOf(x, w[..|w| - 1]);
    }
  }

  // ---- the pattern, one stage at a time ----

  /** `\s*`: the leading whitespace and what follows it. */
  function Spaces(s: string): (r: (string, string))
    ensures s == r.0 + r.1 && AllSpace(r.0)
    ensures r.1 == [] || !IsSpace(r.1[0])
  {
    var b := Run(s, IsSpace);
    assert s == s[..b] + s[b..];
    (s[..b], s[b..])
  }

  lemma SpacesOf(w: string, y: string)
    requires AllSpace(w) && (y == [] || !IsSpace(y[0]))
    ensures Spaces(w + y) == (w, y)
  {
    RunOf(w, y, IsSpace);
    assert (w + y)[..|w|] == w && (w + y)[|w|..] == y;
  }

  /** `(\S+)\s+`: a word, the whitespace after it, and what follows. */
  function Word(s: string): (r: Option<(string, string, string)>)
    ensures r.Some? ==> var (x, w, y) := r.value;
      && s == x + w + y
      && x != [] && NoSpace(x) && w != [] && AllSpace(w)
      && (y == [] || !IsSpace(y[0]))
  {
    var a := Run(s, NotSpace);
    var (w, y) := Spaces(s[a..]);
    if a == 0 || w == [] then None
    else
      assert s == s[..a] + s[a..];
      Some((s[..a], w, y))
  }

  lemma WordOf(x: string, w: string, y: string)
    requires x != [] && NoSpace(x) && w != [] && AllSpace(w)
    requires y == [] || !IsSpace(y[0])
    ensures Word(x + w + y) == Some((x, w, y))
  {
    var s := x + w + y;
    assert s == x + (w + y) && s[|x|..] == w + y;
    RunOf(x, w + y, NotSpace);
    SpacesOf(w, y);
  }

  /** `([^\]]+)\]`: the group up to the first `]`, and what follows it. */
  function Closed(t: string): (r: Option<(string, string)>)
    ensures r.Some? ==> var (g, rest) := r.value;
      t == g + [']'] + rest && g != [] && ']' !in g
  {
    var e := Run(t, NotClose);
    if e == 0 || e == |t| then None
    else
      var g := t[..e];
      assert forall i :: 0 <= i < |g| ==> g[i] != ']';
      assert t == g + [t[e]] + t[e + 1..];
      Some((g, t[e + 1..]))
  }

  /** `\[([^\]]+)\]\s+`: the bracketed group, the whitespace after it, and
      what follows. */
  function Bracket(s: string): (r: Option<(string, string, string)>)
    ensures r.Some? ==> var (g, w, y) := r.value;
      && s == ['['] + g + [']'] + w + y
      && g != [] && ']' !in g && w != [] && AllSpace(w)
      && (y == [] || !IsSpace(y[0]))
  {
    if s == [] || s[0] != '[' then None
    else match Closed(s[1..])
      case None => None
      case Some((g, rest)) =>
        var (w, y) := Spaces(rest);
        if w == [] then None
        else
          BracketConcat(s, g, rest, w, y);
          Some((g, w, y))
  }

  /** The pieces of `Bracket` put back together. */
  lemma BracketConcat(s: string, g: string, rest: string, w: string, y: string)
    requires s != [] && s[0] == '['
    requires s[1..] == g + [']'] + rest && rest == w + y
    ensures s == ['['] + g + [']'] + w + y
  {
    assert s == ['['] + s[1..];
  }

  lemma BracketOf(g: string, w: string, y: string)
    requires g != [] && ']' !in g && w != [] && AllSpace(w)
    requires y == [] || !IsSpace(y[0])
    ensures Bracket(['['] + g + [']'] + w + y) == Some((g, w, y))
  {
    var s := ['['] + g + [']'] + w + y;
    var t := g + ([']'] + w + y);
    assert s[1..] == t;
    RunOf(g, [']'] + w + y, NotClose);
    assert t[..|g|] == g && t[|g| + 1..] == w + y;
    SpacesOf(w, y);
  }

  /** `\/(.+)\/\s*$`: the last group and the trailing whitespace. */
  function Tail(s: string): (r: Option<(string, string)>)
    ensures r.Some? ==> var (d, w) := r.value;
      && s == ['/'] + d + ['/'] + w
      && d != [] && NoLineTerminator(d) && AllSpace(w)
  {
    if s == [] || s[0] != '/' then None
    else
      var t := TrimEnd(s[1..]);
      if |t| < 2 || t[|t| - 1] != '/' || !NoLineTerminator(t[..|t| - 1]) then None
      else
        TrimEndDrops(s[1..]);
        assert s == ['/'] + t[..|t| - 1] + ['/'] + s[1..][|t|..];
        Some((t[..|t| - 1], s[1..][|t|..]))
  }

  lemma TailOf(d: string, w: string)
    requires d != [] && NoLineTerminator(d) && AllSpace(w)
    ensures Tail(['/'] + d + ['/'] + w) == Some((d, w))
  {
    var s := ['/'] + d + ['/'] + w;
    assert s[1..] == (d + ['/']) + w;
    TrimEndOf(d + ['/'], w);
    assert (d + ['/'])[..|d|] == d;
  }

  /** The pattern's side conditions on the four groups. */
  predicate GroupsFit(p: Parts) {
    && p.trad != [] && NoSpace(p.trad)
    && p.simp != [] && NoSpace(p.simp)
    && p.pinyin != [] && ']' !in p.pinyin
    && p.defs != [] && NoLineTerminator(p.defs)
  }

  /** ... and on the whitespace between them. */
  predicate Fits(p: Parts, w1: string, w2: string, w3: string, w4: string) {
    && GroupsFit(p)
    && w1 != [] && AllSpace(w1)
    && w2 != [] && AllSpace(w2)
    && w3 != [] && AllSpace(w3)
    && AllSpace(w4)
  }

  /** The line the pattern describes, given its groups and whitespace. */
  function Render(p: Parts, w1: string, w2: string, w3: string, w4: string): string {
    p.trad + w1 + (p.simp + w2 + (['['] + p.pinyin + [']'] + w3 + (['/'] + p.defs + ['/'] + w4)))
  }

  /** The match of one line against the whole pattern. Each class in the
      pattern is disjoint from the token after it, so backtracking never
      moves a group boundary: the greedy runs are the only candidates, and
      the last group runs up to the final `/` before trailing whitespace.
      Whatever matches is a line the pattern describes. */
  function MatchLine(line: string): (r: Option<Parts>)
    ensures r.Some? ==> GroupsFit(r.value)
  {
    match Word(line)
    case None => None
    case Some((trad, w1, r1)) =>
      match Word(r1)
      case None => None
      case Some((simp, w2, r2)) =>
        match Bracket(r2)
        case None => None
        case Some((pinyin, w3, r3)) =>
          match Tail(r3)
          case None => None
          case Some((defs, w4)) =>
            Some(Parts(trad, simp, pinyin, defs))
  }

  /** Whatever matches is a line the pattern describes. */
  lemma MatchSound(line: string)
    requires MatchLine(line).Some?
    ensures exists w1, w2, w3, w4 ::
      Fits(MatchLine(line).value, w1, w2, w3, w4) && line == Render(MatchLine(line).value, w1, w2, w3, w4)
  {
    var (trad, w1, r1) := Word(line).value;
    var (simp, w2, r2) := Word(r1).value;
    var (pinyin, w3, r3) := Bracket(r2).value;
    var (defs, w4) := Tail(r3).value;
    var p := Parts(trad, simp, pinyin, defs);
    assert MatchLine(line) == Some(p);
    assert line == Render(p, w1, w2, w3, w4);
  }

  /** Every line the pattern describes is matched, with exactly its groups. */
  lemma MatchComplete(p: Parts, w1: string, w2: string, w3: string, w4: string)
    requires Fits(p, w1, w2, w3, w4)
    ensures MatchLine(Render(p, w1, w2, w3, w4)) == Some(p)
  {
    var r3 := ['/'] + p.defs + ['/'] + w4;
    var r2 := ['['] + p.pinyin + [']'] + w3 + r3;
    var r1 := p.simp + w2 + r2;
    assert !IsSpace('[') && !IsSpace('/');
    WordOf(p.trad, w1, r1);
    WordOf(p.simp, w2, r2);
    BracketOf(p.pinyin, w3, r3);
    TailOf(p.defs, w4);
  }

  // ---- the conversion ----

  /** What every converted entry looks like: both headwords present,
      non-empty and free of whitespace; a non-empty reading without `]`; and
      a list of `/`-free glosses whose `/`-join is non-empty and holds no
      line terminator. */
  predicate CedictShaped(e: Entry) {
    && e.simplified.Some? && e.simplified.value != [] && NoSpace(e.simplified.value)
    && e.traditional.Some? && e.traditional.value != [] && NoSpace(e.traditional.value)
    && e.pinyin.Str? && e.pinyin.s != [] && ']' !in e.pinyin.s
    && e.definitions.Arr? && e.definitions.items != []
    && (forall i :: 0 <= i < |e.definitions.items| ==> '/' !in e.definitions.items[i])
    && Join(e.definitions.items, "/") != [] && NoLineTerminator(Join(e.definitions.items, "/"))
  }

  /** The entry pushed for a match: both headwords, the reading, and the
      last group split on `/`, which joins back to that group. */
  function ToEntry(p: Parts): (e: Entry)
    requires GroupsFit(p)
    ensures e.simplified == Some(p.simp) && e.traditional == Some(p.trad)
    ensures e.pinyin == Str(p.pinyin)
    ensures e.definitions.Arr? && Join(e.definitions.items, "/") == p.defs
    ensures CedictShaped(e)
  {
    JoinSplit(p.defs, '/');
    SplitPiecesFree(p.defs, '/');
    Entry(simplified := Some(p.simp), traditional := Some(p.trad),
          pinyin := Str(p.pinyin), definitions := Arr(Split(p.defs, '/')))
  }

  /** One line of the file: skipped lines give nothing; any other line gives
      the entry of its match, or nothing when the pattern rejects it. */
  function ConvertLine(line: string): (r: Option<Entry>)
    ensures r.Some? ==> CedictShaped(r.value)
    ensures SkipLine(line) ==> r.None?
    ensures r.Some? <==> !SkipLine(line) && MatchLine(line).Some?
    ensures r.Some? ==> r.value == ToEntry(MatchLine(line).value)
  {
    if SkipLine(line) then None
    else match MatchLine(line)
      case None => None
      case Some(p) => Some(ToEntry(p))
  }

  /** The loop over the lines: one entry per line that is neither skipped
      nor rejected by the pattern, in file order. */
  function ConvertLines(lines: seq<string>): (r: seq<Entry>)
    ensures |r| <= |lines|
    ensures forall e :: e in r ==> CedictShaped(e)
  {
    if lines == [] then []
    else
      var head := ConvertLine(lines[0]);
      var rest := ConvertLines(lines[1..]);
      if head.Some? then [head.value] + rest else rest
  }

  /** The whole file: split on newlines, then convert line by line. */
  function Convert(text: string): seq<Entry> {
    ConvertLines(Split(text, '\n'))
  }

  lemma {:induction false} ConvertLinesAppend(a: seq<string>, b: seq<string>)
    ensures ConvertLines(a + b) == ConvertLines(a) + ConvertLines(b)
    decreases |a|
  {
    if a == [] {
      assert a + b == b;
    } else {
      assert (a + b)[1..] == a[1..] + b;
      ConvertLinesAppend(a[1..], b);
    }
  }

  /** A file of one line gives that line's entry, or nothing. */
  lemma ConvertOneLine(line: string)
    requires '\n' !in line
    ensures Convert(line) == if ConvertLine(line).Some? then [ConvertLine(line).value] else []
  {
    SplitWhole(line, '\n');
  }

  /** Two files joined by a newline convert to the entries of the first
      followed by those of the second. */
  lemma ConvertAppend(x: string, y: string)
    ensures Convert(x + "\n" + y) == Convert(x) + Convert(y)
  {
    SplitConcat(x, '\n', y);
    ConvertLinesAppend(Split(x, '\n'), Split(y, '\n'));
  }

  /** Rendering groups in the file's layout and converting the line gives
      their entry back, unless the line opens like a comment. */
  lemma ConvertRoundTrip(p: Parts, w1: string, w2: string, w3: string, w4: string)
    requires Fits(p, w1, w2, w3, w4)
    requires p.trad[0] != '#' && p.trad[0] != '%'
    ensures ConvertLine(Render(p, w1, w2, w3, w4)) == Some(ToEntry(p))
  {
    var line := Render(p, w1, w2, w3, w4);
    MatchComplete(p, w1, w2, w3, w4);
    assert line[0] == p.trad[0];
    assert !("#" <= line) && !("%" <= line);
    assert !IsSpace(line[0]);
    assert !AllSpace(line);
    TrimEmpty(line);
    assert !SkipLine(line);
  }

  /** Comment lines and lines of only white space give no entry, even when
      the pattern would match them. */
  lemma SkippedLines(line: string)
    ensures "#" <= line ==> ConvertLine(line) == None
    ensures "%" <= line ==> ConvertLine(line) == None
    ensures AllSpace(line) ==> ConvertLine(line) == None
  {
    TrimEmpty(line);
  }

  /** A commented-out record fits the pattern but gives no entry. */
  lemma CommentedRecordSkipped()
    ensures MatchLine("#a b [c] /d/") == Some(Parts("#a", "b", "c", "d"))
    ensures ConvertLine("#a b [c] /d/") == None
  {
    CommentedRecordLayout();
    MatchComplete(Parts("#a", "b", "c", "d"), " ", " ", " ", "");
    assert "#" <= "#a b [c] /d/";
  }

  /** The groups and blanks that lay out the commented-out record. */
  lemma CommentedRecordLayout()
    ensures Fits(Parts("#a", "b", "c", "d"), " ", " ", " ", "")
    ensures Render(Parts("#a", "b", "c", "d"), " ", " ", " ", "") == "#a b [c] /d/"
  {
  }

  /** A `%` line is dropped here but kept, as a record, by the browser-side
      reader. */
  lemma PercentLinesDisagree(line: string)
    requires "%" <= line
    ensures ConvertLine(line) == None
    ensures CedictParser.KeepLine(line)
  {
    CedictParser.LineFilter(line);
  }
}

=== FILE: display.dfy ===
/** `formatEntryForDisplay`: the three strings the page shows for one object
    returned by `search`. */
module Display {

  import opened Wrappers
  import opened Text
  import opened Entries
  import opened Scoring
  import opened Assemble
  import opened Searching
  import opened Store

  /** An object handed back by `search`: an assembled result, or a raw
      `{ entry, score }` hit from the exact-hanzi branch. */
  datatype Shown = ResultObject(result: SearchResult) | HitObject(hit: Hit)

  datatype Card = Card(hanzi: string, pinyin: string, definitions: string)

  /** The objects of one search output, in order. */
  function ShownObjects(out: SearchOutput): (r: seq<Shown>)
    ensures out.ExactHits? ==> |r| == |out.hits| && forall i :: 0 <= i < |r| ==> r[i] == HitObject(out.hits[i])
    ensures out.Ranked? ==> |r| == |out.results| && forall i :: 0 <= i < |r| ==> r[i] == ResultObject(out.results[i])
  {
    match out
    case ExactHits(hs) => seq(|hs|, i requires 0 <= i < |hs| => HitObject(hs[i]))
    case Ranked(rs) => seq(|rs|, i requires 0 <= i < |rs| => ResultObject(rs[i]))
  }

  /** A raw hit has none of the read properties, so every line falls back to
      the empty string; a result's arrays are always truthy and are joined. */
  function FormatEntryForDisplay(o: Shown): (c: Card)
    ensures o.HitObject? ==> c == Card([], [], [])
  {
    match o
    case HitObject(_) => Card([], [], [])
    case ResultObject(r) =>
      Card(OrElse(r.simplified, OrElse(r.traditional, [])),
           Join(r.pinyin, " / "),
           Join(r.definitions, "; "))
  }

  /** For an assembled result the card shows the entry's headword, its
      readings joined by " / ", and exactly the gloss text the definition
      strategy was matched against. */
  lemma FormatProjected(h: Hit)
    ensures var c := FormatEntryForDisplay(ResultObject(Project(h)));
      && c.hanzi == HeadForm(h.entry)
      && c.pinyin == Join(AsList(h.entry.pinyin), " / ")
      && c.definitions == GlossText(h.entry.definitions)
      && (h.entry.pinyin.Str? ==> c.pinyin == h.entry.pinyin.s)
  {
    var d := h.entry.definitions;
    if d.Str? && d.s == [] {
      assert GlossList(d) == [];
    }
  }

  /** Every card formatted from an exact-hanzi search is blank, whatever
      entries were found. */
  lemma ExactHitsShowBlank(st: Store, query: string, limit: Option<int>, i: nat)
    requires Search(st, query, limit).Success? && Search(st, query, limit).value.ExactHits?
    requires i < |ShownObjects(Search(st, query, limit).value)|
    ensures FormatEntryForDisplay(ShownObjects(Search(st, query, limit).value)[i]) == Card([], [], [])
  {
  }
}

=== FILE: entries.dfy ===
/** The loose shape of a dictionary entry as the browser code meets it after
    `JSON.parse`: every property may be missing, and the reading and gloss
    properties may be a bare string or an array. */
module Entries {

  import opened Wrappers
  import opened Text

  /** A property the code inspects with `Array.isArray`. */
  datatype Field = Absent | Str(s: string) | Arr(items: seq<string>)

  /** One lexicon entry. `None` stands for a missing property. */
  datatype Entry = Entry(
    simplified: Option<string>,
    traditional: Option<string>,
    pinyin: Field,
    definitions: Field)

  /** JavaScript truthiness of an optional string: `undefined` and `""` are falsy. */
  predicate Truthy(o: Option<string>) {
    o.Some? && o.value != []
  }

  /** An optional string, or the fallback when it is missing or empty. */
  function OrElse(o: Option<string>, fallback: string): (r: string)
    ensures Truthy(o) ==> r == o.value
    ensures !Truthy(o) ==> r == fallback
  {
    if Truthy(o) then o.value else fallback
  }

  /** The headword every identity key starts with: the simplified form, else
      the traditional one, else empty text. */
  function HeadForm(e: Entry): (r: string)
    ensures r == [] <==> !Truthy(e.simplified) && !Truthy(e.traditional)
    ensures Truthy(e.simplified) ==> r == e.simplified.value
    ensures !Truthy(e.simplified) && Truthy(e.traditional) ==> r == e.traditional.value
  {
    OrElse(e.simplified, OrElse(e.traditional, []))
  }

  /** A field read as a list: a list is itself, a bare string becomes a
      one-element list, a missing one the list holding empty text. */
  function AsList(f: Field): (r: seq<string>)
    ensures f.Arr? ==> r == f.items
    ensures f.Str? ==> r == [f.s]
    ensures f.Absent? ==> r == [[]]
  {
    match f
    case Arr(xs) => xs
    case Str(s) => [s]
    case Absent => [[]]
  }

  /** The definitions list of a search result: a list is itself, and a bare
      string becomes a one-element list unless it is empty or missing. */
  function GlossList(f: Field): (r: seq<string>)
    ensures f.Arr? ==> r == f.items
    ensures f.Str? && f.s != [] ==> r == [f.s]
    ensures f.Absent? || f == Str([]) ==> r == []
  {
    match f
    case Arr(xs) => xs
    case Str(s) => if s != [] then [s] else []
    case Absent => []
  }

  /** The gloss text the definition strategy searches: a list joined with
      "; ", a bare string as it is, empty text when missing. */
  function GlossText(f: Field): (r: string)
    ensures f.Arr? ==> r == Join(f.items, "; ")
    ensures f.Str? ==> r == f.s
    ensures f.Absent? ==> r == []
  {
    match f
    case Arr(xs) => Join(xs, "; ")
    case Str(s) => s
    case Absent => []
  }
}

=== FILE: favorites.dfy ===
/** The favorites list kept in browser storage under one key: read, add,
    remove and clear, each over the stored blob. */
module Favorites {

  import opened Wrappers
  import opened Text
  import opened Entries
  import opened Normalize

  /** The first reading: the head of a list, or the bare string, or empty
      text; the head of an empty list is undefined, which strips to empty. */
  function FirstReading(f: Field): string {
    match f
    case Arr(xs) => if xs == [] then [] else xs[0]
    case Str(s) => s
    case Absent => []
  }

  /** `entryKey`: headword, two underscores, then the first reading with its
      tone digits removed and its whitespace collapsed. */
  function EntryKey(e: Entry): (k: string)
    ensures HeadForm(e) + "__" <= k
    ensures Stripped(k[|HeadForm(e)| + 2..])
  {
    StripShape(FirstReading(e.pinyin));
    HeadForm(e) + "__" + StripPinyinNumbers(FirstReading(e.pinyin))
  }

  /** The stored record: both readings and glosses become arrays, a missing
      one becoming `[""]`. */
  datatype Favorite = Favorite(
    key: string,
    simplified: Option<string>,
    traditional: Option<string>,
    pinyin: seq<string>,
    definitions: seq<string>)

  /** What storage holds under the favorites key: nothing (or the empty
      string), text that does not parse, or a saved list. */
  datatype Blob = NoBlob | Corrupt | Saved(items: seq<Favorite>)

  function MakeFavorite(e: Entry): (f: Favorite)
    ensures f.key == EntryKey(e)
    ensures f.simplified == e.simplified && f.traditional == e.traditional
    ensures e.pinyin.Arr? ==> f.pinyin == e.pinyin.items
    ensures !e.pinyin.Arr? ==> |f.pinyin| == 1 && f.pinyin[0] == FirstReading(e.pinyin)
    ensures e.definitions.Arr? ==> f.definitions == e.definitions.items
    ensures e.definitions.Str? ==> f.definitions == [e.definitions.s]
    ensures e.definitions.Absent? ==> f.definitions == [[]]
  {
    Favorite(EntryKey(e), e.simplified, e.traditional, AsList(e.pinyin), AsList(e.definitions))
  }

  predicate HasKey(fav: seq<Favorite>, key: string) {
    exists i :: 0 <= i < |fav| && fav[i].key == key
  }

  predicate UniqueKeys(fav: seq<Favorite>) {
    forall i, j :: 0 <= i < j < |fav| ==> fav[i].key != fav[j].key
  }

  /** `getFavorites`: a saved list reads back as itself; a missing or
      unparsable blob reads as no favorites. */
  function GetFavorites(b: Blob): (r: seq<Favorite>)
    ensures b.Saved? ==> r == b.items
    ensures !b.Saved? ==> r == []
  {
    if b.Saved? then b.items else []
  }

  /** `addFavorite`: an entry whose key is already listed leaves both the list
      and the blob as they were; otherwise its record goes to the front and
      the list is saved. Returns the new blob and the list handed back. */
  function AddFavorite(b: Blob, e: Entry): (r: (Blob, seq<Favorite>))
    ensures GetFavorites(r.0) == r.1
    ensures HasKey(r.1, EntryKey(e))
    ensures |r.1| <= |GetFavorites(b)| + 1
    ensures HasKey(GetFavorites(b), EntryKey(e)) ==> r == (b, GetFavorites(b))
    ensures !HasKey(GetFavorites(b), EntryKey(e)) ==>
      r.1 == [MakeFavorite(e)] + GetFavorites(b) && r.0 == Saved(r.1)
  {
    var fav := GetFavorites(b);
    var key := EntryKey(e);
    if HasKey(fav, key) then (b, fav)
    else
      var fav' := [MakeFavorite(e)] + fav;
      assert fav'[0].key == key;
      (Saved(fav'), fav')
  }

  /** The records not filed under `key`, in their order. */
  function WithoutKey(fav: seq<Favorite>, key: string): (r: seq<Favorite>)
    ensures |r| <= |fav|
    ensures forall f :: f in r <==> f in fav && f.key != key
  {
    if fav == [] then []
    else if fav[0].key == key then WithoutKey(fav[1..], key)
    else [fav[0]] + WithoutKey(fav[1..], key)
  }

  /** `removeFavorite`: the list without the records under that key, saved;
      the survivors keep their order (`WithoutKeyAppend`). */
  function RemoveFavorite(b: Blob, key: string): (r: (Blob, seq<Favorite>))
    ensures r.0 == Saved(r.1)
    ensures !HasKey(r.1, key)
    ensures forall f :: f in GetFavorites(b) && f.key != key ==> f in r.1
    ensures r.1 == WithoutKey(GetFavorites(b), key)
  {
    var fav := WithoutKey(GetFavorites(b), key);
    (Saved(fav), fav)
  }

  /** `clearFavorites` */
  function ClearFavorites(): (b: Blob)
    ensures GetFavorites(b) == []
  {
    Saved([])
  }

  /** Adding the same entry twice is the same as adding it once. */
  lemma AddIdempotent(b: Blob, e: Entry)
    ensures AddFavorite(AddFavorite(b, e).0, e) == AddFavorite(b, e)
  {
  }

  /** An add never lists two records under one key, and after it exactly one
      record carries the entry's key. */
  lemma AddKeepsUniqueKeys(b: Blob, e: Entry)
    requires UniqueKeys(GetFavorites(b))
    ensures UniqueKeys(AddFavorite(b, e).1)
    ensures forall i, j ::
      (0 <= i < |AddFavorite(b, e).1| && 0 <= j < |AddFavorite(b, e).1| &&
       AddFavorite(b, e).1[i].key == EntryKey(e) && AddFavorite(b, e).1[j].key == EntryKey(e)) ==> i == j
  {
  }

  /** Nothing already listed is lost or reordered: the old list is what follows
      the (possibly new) front record. */
  lemma AddKeepsOldList(b: Blob, e: Entry)
    ensures var fav := AddFavorite(b, e).1;
      fav == GetFavorites(b) || (fav[1..] == GetFavorites(b) && fav[0] == MakeFavorite(e))
  {
  }

  /** Two entries with the same headword whose first readings differ only in
      tone digits share a key, so the second add changes nothing. */
  lemma ToneVariantsShareKey(b: Blob, e1: Entry, e2: Entry)
    requires HeadForm(e1) == HeadForm(e2)
    requires RemoveDigits(FirstReading(e1.pinyin)) == RemoveDigits(FirstReading(e2.pinyin))
    ensures EntryKey(e1) == EntryKey(e2)
    ensures AddFavorite(AddFavorite(b, e1).0, e2) == AddFavorite(b, e1)
  {
    ToneDigitsIgnored(FirstReading(e1.pinyin), FirstReading(e2.pinyin));
  }

  /** Filtering splits over concatenation, so the kept records stay in their
      order, each kept once for each time it was listed. */
  lemma {:induction false} WithoutKeyAppend(a: seq<Favorite>, c: seq<Favorite>, key: string)
    ensures WithoutKey(a + c, key) == WithoutKey(a, key) + WithoutKey(c, key)
    decreases |a|
  {
    if a == [] {
      assert a + c == c;
    } else {
      assert (a + c)[1..] == a[1..] + c;
      WithoutKeyAppend(a[1..], c, key);
      if a[0].key != key {
        SeqAssoc([a[0]], WithoutKey(a[1..], key), WithoutKey(c, key));
      }
    }
  }

  /** Removing a key that is not listed keeps the list as it was. */
  lemma {:induction false} WithoutAbsentKey(fav: seq<Favorite>, key: string)
    requires !HasKey(fav, key)
    ensures WithoutKey(fav, key) == fav
  {
    if fav != [] {
      assert !HasKey(fav[1..], key) by {
        forall i | 0 <= i < |fav[1..]| ensures fav[1..][i].key != key {
          assert fav[1..][i] == fav[i + 1];
        }
      }
      WithoutAbsentKey(fav[1..], key);
    }
  }

  /** Removing the key of an entry just added restores the list held before
      the add, provided that key was not listed yet. */
  lemma RemoveUndoesAdd(b: Blob, e: Entry)
    requires !HasKey(GetFavorites(b), EntryKey(e))
    ensures RemoveFavorite(AddFavorite(b, e).0, EntryKey(e)).1 == GetFavorites(b)
  {
    var fav := GetFavorites(b);
    var added := [MakeFavorite(e)] + fav;
    assert added[1..] == fav;
    WithoutAbsentKey(fav, EntryKey(e));
  }
}

=== FILE: normalize.dfy ===
/** The string normalisers of the search module: `normalizeString`,
    `stripPinyinNumbers`, `isChineseInput`, the tone-mark test of `search`
    and the four-level ranker `rankMatch`. */
module Normalize {

  import opened Text

  /** `normalizeString`: fold (canonical composition is the identity here,
      case folding is ASCII) and trim. */
  function NormalizeString(s: string): string {
    if s == [] then [] else Trim(Lower(s))
  }

  /** A folded string has clean ends and no capitals, and is empty exactly
      when the input was all whitespace. */
  lemma NormalizeShape(s: string)
    ensures Trimmed(NormalizeString(s)) && NoUpper(NormalizeString(s))
    ensures |NormalizeString(s)| <= |s|
    ensures NormalizeString(s) == [] <==> AllSpace(s)
  {
    if s != [] {
      var l := Lower(s);
      TrimEmpty(l);
      TrimKeeps(l, c => !IsUpper(c));
      assert AllSpace(l) <==> AllSpace(s);
    }
  }

  /** Folding twice folds no further. */
  lemma NormalizeIdempotent(s: string)
    ensures NormalizeString(NormalizeString(s)) == NormalizeString(s)
  {
    var r := NormalizeString(s);
    NormalizeShape(s);
    if r != [] {
      LowerFixesLowerCase(r);
      TrimFixesTrimmed(r);
    }
  }

  /** The text with every ASCII digit removed. */
  function RemoveDigits(s: string): (r: string)
    ensures NoDigits(r)
    ensures |r| <= |s|
    ensures NoDigits(s) ==> r == s
    ensures forall i :: 0 <= i < |r| ==> r[i] in s
  {
    if s == [] then []
    else if IsDigit(s[0]) then RemoveDigits(s[1..])
    else [s[0]] + RemoveDigits(s[1..])
  }

  /** Every whitespace character is a plain blank. */
  predicate SpacesAreBlanks(s: string) {
    forall i :: 0 <= i < |s| && IsSpace(s[i]) ==> s[i] == ' '
  }

  /** No two adjacent whitespace characters. */
  predicate NoDoubleSpace(s: string) {
    forall i :: 0 <= i < |s| - 1 ==> !IsSpace(s[i]) || !IsSpace(s[i + 1])
  }

  /** Each maximal whitespace run becomes one blank. */
  function CollapseSpaces(s: string): (r: string)
    ensures SpacesAreBlanks(r) && NoDoubleSpace(r)
    ensures (r == []) == (s == [])
    ensures r != [] ==> (IsSpace(r[0]) <==> IsSpace(s[0]))
    decreases |s|
  {
    if s == [] then []
    else if IsSpace(s[0]) then " " + CollapseSpaces(TrimStart(s))
    else [s[0]] + CollapseSpaces(s[1..])
  }

  /** Collapsing only ever writes blanks, so it brings in no digit. */
  lemma {:induction false} CollapseKeepsNoDigits(s: string)
    requires NoDigits(s)
    ensures NoDigits(CollapseSpaces(s))
    decreases |s|
  {
    if s != [] {
      if IsSpace(s[0]) {
        var t := TrimStart(s);
        CollapseKeepsNoDigits(t);
      } else {
        CollapseKeepsNoDigits(s[1..]);
      }
    }
  }

  /** A string already in collapsed shape is left alone. */
  lemma {:induction false} CollapseFixesCollapsed(s: string)
    requires SpacesAreBlanks(s) && NoDoubleSpace(s)
    ensures CollapseSpaces(s) == s
    decreases |s|
  {
    if s != [] {
      var t := s[1..];
      assert forall i :: 0 <= i < |t| ==> t[i] == s[i + 1];
      assert SpacesAreBlanks(t) && NoDoubleSpace(t);
      assert s == [s[0]] + t;
      CollapseFixesCollapsed(t);
      if IsSpace(s[0]) {
        assert t == [] || !IsSpace(t[0]);
        assert TrimStart(t) == t;
        assert TrimStart(s) == t;
      }
    }
  }

  /** The canonical shape `stripPinyinNumbers` produces. */
  predicate Stripped(s: string) {
    NoDigits(s) && NoUpper(s) && SpacesAreBlanks(s) && NoDoubleSpace(s) && Trimmed(s)
  }

  /** A slice of a collapsed digit-free string is still collapsed and digit-free. */
  lemma SliceKeepsShape(c: string, k: nat, n: nat)
    requires k <= n <= |c|
    requires NoDigits(c) && SpacesAreBlanks(c) && NoDoubleSpace(c)
    ensures NoDigits(c[k..n]) && SpacesAreBlanks(c[k..n]) && NoDoubleSpace(c[k..n])
  {
    var t := c[k..n];
    assert forall i :: 0 <= i < |t| ==> t[i] == c[k + i];
  }

  /** Folding keeps every whitespace position, so it keeps the shape. */
  lemma LowerKeepsShape(t: string)
    requires NoDigits(t) && SpacesAreBlanks(t) && NoDoubleSpace(t) && Trimmed(t)
    ensures Stripped(Lower(t))
  {
    var r := Lower(t);
    assert forall i :: 0 <= i < |r| ==> (IsSpace(r[i]) <==> IsSpace(t[i]));
  }

  /** Trimming and then folding keep the collapsed shape and add the two
      missing properties: clean ends and no capitals. */
  lemma TrimLowerStrips(c: string)
    requires NoDigits(c) && SpacesAreBlanks(c) && NoDoubleSpace(c)
    ensures Stripped(Lower(Trim(c)))
  {
    var t := Trim(c);
    var k := LeadingSpace(c);
    TrimShape(c);
    assert t == c[k..k + |t|];
    SliceKeepsShape(c, k, k + |t|);
    assert Trimmed(t);
    LowerKeepsShape(t);
  }

  /** `stripPinyinNumbers`: drop tone digits, collapse whitespace runs to one
      blank, trim, fold case. */
  function StripPinyinNumbers(p: string): string {
    if p == [] then [] else Lower(Trim(CollapseSpaces(RemoveDigits(p))))
  }

  /** The stripped reading has no digit, no capital, no whitespace at either
      end and no two whitespace characters in a row, and a string already in
      that shape is its own stripped form; so stripping is idempotent. */
  lemma StripShape(p: string)
    ensures Stripped(StripPinyinNumbers(p))
    ensures Stripped(p) ==> StripPinyinNumbers(p) == p
    ensures StripPinyinNumbers(StripPinyinNumbers(p)) == StripPinyinNumbers(p)
  {
    if p != [] {
      CollapseKeepsNoDigits(RemoveDigits(p));
      TrimLowerStrips(CollapseSpaces(RemoveDigits(p)));
    }
    forall x | Stripped(x) && x != []
      ensures StripPinyinNumbers(x) == x
    {
      CollapseFixesCollapsed(x);
      TrimFixesTrimmed(x);
      LowerFixesLowerCase(x);
    }
  }

  /** Readings that differ only in tone digits strip to the same text. */
  lemma ToneDigitsIgnored(p1: string, p2: string)
    requires RemoveDigits(p1) == RemoveDigits(p2)
    ensures StripPinyinNumbers(p1) == StripPinyinNumbers(p2)
  {
    if p1 == [] || p2 == [] {
      assert RemoveDigits(p1) == [] && RemoveDigits(p2) == [];
    }
  }

  /** Digit removal works piece by piece. */
  lemma {:induction false} RemoveDigitsAppend(a: string, b: string)
    ensures RemoveDigits(a + b) == RemoveDigits(a) + RemoveDigits(b)
    decreases |a|
  {
    if a == [] {
      assert a + b == b;
    } else {
      assert (a + b)[0] == a[0] && (a + b)[1..] == a[1..] + b;
      RemoveDigitsAppend(a[1..], b);
    }
  }

  /** The documented example: "ni3 hao3" strips to "ni hao". */
  lemma StripExample()
    ensures StripPinyinNumbers("ni3 hao3") == "ni hao"
  {
    NiHaoDigits();
    NiHaoIsStripped();
    StripShape("ni hao");
    ToneDigitsIgnored("ni3 hao3", "ni hao");
  }

  lemma NiHaoDigits()
    ensures RemoveDigits("ni3 hao3") == RemoveDigits("ni hao")
  {
    var ni, hao := "ni", " hao";
    assert "ni3 hao3" == ni + "3" + hao + "3";
    assert "ni hao" == ni + hao;
    assert RemoveDigits("3") == [];
    RemoveDigitsAppend(ni + "3" + hao, "3");
    RemoveDigitsAppend(ni + "3", hao);
    RemoveDigitsAppend(ni, "3");
    RemoveDigitsAppend(ni, hao);
  }

  lemma NiHaoIsStripped()
    ensures Stripped("ni hao")
  {
    var s := "ni hao";
    assert forall i :: 0 <= i < |s| ==> s[i] in "nihao ";
    LetterIsNotSpace('n');
    LetterIsNotSpace('i');
    LetterIsNotSpace('h');
    LetterIsNotSpace('a');
    LetterIsNotSpace('o');
  }

  /** The ideographic block U+4E00..U+9FFF that `isChineseInput` tests for. */
  predicate IsHan(c: char) {
    '\U{4E00}' <= c <= '\U{9FFF}'
  }

  /** `isChineseInput`: some character of the query is ideographic. */
  predicate IsChineseInput(q: string) {
    exists i :: 0 <= i < |q| && IsHan(q[i])
  }

  /** Trimming never removes an ideograph, so the test gives the same answer
      on the trimmed query as on the raw one. */
  lemma ChineseTrimmed(q: string)
    ensures IsChineseInput(Trim(q)) <==> IsChineseInput(q)
  {
    TrimShape(q);
    ChineseInWindow(q, LeadingSpace(q), Trim(q));
  }

  /** Text between two whitespace runs holds an ideograph exactly when the
      whole does. */
  lemma ChineseInWindow(s: string, a: nat, t: string)
    requires a + |t| <= |s| && t == s[a..a + |t|]
    requires AllSpace(s[..a]) && AllSpace(s[a + |t|..])
    ensures IsChineseInput(t) <==> IsChineseInput(s)
  {
    if IsChineseInput(s) {
      var i :| 0 <= i < |s| && IsHan(s[i]);
      HanNotSpace(s[i]);
      forall k | 0 <= k < a
        ensures IsSpace(s[k])
      {
        assert s[..a][k] == s[k];
      }
      forall k | a + |t| <= k < |s|
        ensures IsSpace(s[k])
      {
        assert s[a + |t|..][k - a - |t|] == s[k];
      }
      assert t[i - a] == s[i];
    }
    if IsChineseInput(t) {
      var j :| 0 <= j < |t| && IsHan(t[j]);
      assert s[a + j] == t[j];
    }
  }

  lemma HanNotSpace(c: char)
    requires IsHan(c)
    ensures !IsSpace(c)
  {
  }

  /** The vowels with a tone mark that `search` looks for, with their capitals
      (the pattern carries the case-insensitive flag). */
  const ToneMarks: set<char> := {
    '\U{0101}', '\U{0113}', '\U{012B}', '\U{014D}', '\U{016B}', '\U{01D6}', '\U{01CE}',
    '\U{011B}', '\U{01D0}', '\U{01D2}', '\U{01D4}', '\U{01D8}', '\U{01DA}', '\U{01DC}',
    '\U{0100}', '\U{0112}', '\U{012A}', '\U{014C}', '\U{016A}', '\U{01D5}', '\U{01CD}',
    '\U{011A}', '\U{01CF}', '\U{01D1}', '\U{01D3}', '\U{01D7}', '\U{01D9}', '\U{01DB}'
  }

  /** The query looks like pinyin: it has a tone digit or a tone-marked vowel. */
  predicate LooksLikePinyin(q: string) {
    exists i :: 0 <= i < |q| && (IsDigit(q[i]) || q[i] in ToneMarks)
  }

  /** `rankMatch`: compares the folded forms; exact beats prefix beats
      substring beats nothing, whatever the lengths. An empty target never
      matches. */
  function RankMatch(target: string, q: string): (r: int)
    ensures r in {0, 50, 75, 100}
  {
    if target == [] then 0
    else
      var t := NormalizeString(target);
      var qq := NormalizeString(q);
      if t == qq then 100
      else if qq <= t then 75
      else if Contains(t, qq) then 50
      else 0
  }

  /** The levels of `RankMatch` are nested: 100 exactly on equal folded
      forms, at least 75 exactly on a prefix, at least 50 exactly on an
      occurrence, and 0 for an empty target. */
  lemma RankMatchLevels(target: string, q: string)
    ensures target == [] ==> RankMatch(target, q) == 0
    ensures RankMatch(target, q) == 100 <==>
              target != [] && NormalizeString(target) == NormalizeString(q)
    ensures RankMatch(target, q) >= 75 <==>
              target != [] && NormalizeString(q) <= NormalizeString(target)
    ensures RankMatch(target, q) >= 50 <==>
              target != [] && Contains(NormalizeString(target), NormalizeString(q))
  {
    var t := NormalizeString(target);
    var qq := NormalizeString(q);
    if qq <= t {
      ContainsPrefix(t, qq);
    }
  }
}

=== FILE: scoring.dfy ===
/** The per-entry scorer of `search`: the hanzi-substring pass for an
    ideographic query and the three alternative strategies (reading,
    definitions, simplified headword) for any other query. */
module Scoring {

  import opened Text
  import opened Entries
  import opened Normalize

  /** `{ entry, score }`, one candidate of a search. */
  datatype Hit = Hit(entry: Entry, score: int)

  function Max(a: int, b: int): int {
    if a >= b then a else b
  }

  /** One reading against the (trimmed) query: the tone-insensitive rank,
      and when the query looks like pinyin also the folded, tone-aware rank
      plus 5 (added even when that rank is 0). An empty reading is skipped. */
  function ReadingScore(p: string, q: string): (r: int)
    ensures p == [] ==> r == 0
    ensures r in {0, 50, 75, 100} || (LooksLikePinyin(q) && r in {5, 55, 80, 105})
    ensures LooksLikePinyin(q) && p != [] ==> r >= 5
    ensures p != [] ==> r >= RankMatch(StripPinyinNumbers(p), StripPinyinNumbers(q))
    ensures LooksLikePinyin(q) && p != [] ==> r >= RankMatch(NormalizeString(p), NormalizeString(q)) + 5
    ensures p != [] ==>
      || r == RankMatch(StripPinyinNumbers(p), StripPinyinNumbers(q))
      || (LooksLikePinyin(q) && r == RankMatch(NormalizeString(p), NormalizeString(q)) + 5)
  {
    if p == [] then 0
    else
      var plain := RankMatch(StripPinyinNumbers(p), StripPinyinNumbers(q));
      if LooksLikePinyin(q) then Max(plain, RankMatch(NormalizeString(p), NormalizeString(q)) + 5)
      else plain
  }

  /** A running maximum started at 0: the largest element, or 0 when there
      is none larger. */
  function MaxFromZero(xs: seq<int>): (r: int)
    ensures r >= 0
    ensures forall i :: 0 <= i < |xs| ==> r >= xs[i]
    ensures r == 0 || r in xs
  {
    if xs == [] then 0
    else
      var rest := MaxFromZero(xs[1..]);
      assert forall i :: 1 <= i < |xs| ==> xs[1..][i - 1] == xs[i];
      Max(xs[0], rest)
  }

  /** `f` applied to each element, in order. */
  function MapScores(f: string -> int, ps: seq<string>): (r: seq<int>)
    ensures |r| == |ps|
    ensures forall i :: 0 <= i < |ps| ==> r[i] == f(ps[i])
  {
    if ps == [] then []
    else
      var rest := MapScores(f, ps[1..]);
      assert forall i :: 1 <= i < |ps| ==> ps[1..][i - 1] == ps[i];
      [f(ps[0])] + rest
  }

  /** The score of each reading, in order. */
  function ReadingScores(ps: seq<string>, q: string): (r: seq<int>)
    ensures |r| == |ps|
    ensures forall i :: 0 <= i < |ps| ==> r[i] == ReadingScore(ps[i], q)
  {
    MapScores(p => ReadingScore(p, q), ps)
  }

  /** The reading strategy: the best score of any reading, 0 for none. */
  function PinyinScore(ps: seq<string>, q: string): (r: int)
    ensures r >= 0
    ensures forall i :: 0 <= i < |ps| ==> r >= ReadingScore(ps[i], q)
    ensures r == 0 || r in ReadingScores(ps, q)
  {
    MaxFromZero(ReadingScores(ps, q))
  }

  /** The definition strategy: when the folded gloss text contains the folded
      query, 40 plus the rank of the gloss text. */
  function DefinitionScore(e: Entry, q: string): (r: int)
    ensures r in {0, 90, 115, 140}
    ensures r > 0 <==>
              GlossText(e.definitions) != [] && Contains(NormalizeString(GlossText(e.definitions)), NormalizeString(q))
  {
    var defs := GlossText(e.definitions);
    RankMatchLevels(defs, q);
    if defs != [] && Contains(NormalizeString(defs), NormalizeString(q)) then
      40 + RankMatch(defs, q)
    else 0
  }

  /** The definition score follows the rank of the gloss text: 140 exactly
      when the folded gloss text equals the folded query, at least 115
      exactly when it starts with it. */
  lemma DefinitionScoreLevels(e: Entry, q: string)
    ensures DefinitionScore(e, q) >= 115 <==>
              GlossText(e.definitions) != [] && NormalizeString(q) <= NormalizeString(GlossText(e.definitions))
    ensures DefinitionScore(e, q) == 140 <==>
              GlossText(e.definitions) != [] && NormalizeString(GlossText(e.definitions)) == NormalizeString(q)
  {
    var defs := GlossText(e.definitions);
    var rank := RankMatch(defs, q);
    RankMatchLevels(defs, q);
    assert DefinitionScore(e, q) == if rank >= 50 then 40 + rank else 0;
  }

  /** The headword strategy: 60 when the folded simplified form contains the
      folded query. */
  function HanziScore(e: Entry, q: string): int {
    if Truthy(e.simplified) && Contains(NormalizeString(e.simplified.value), NormalizeString(q)) then 60
    else 0
  }

  /** The score of an entry for a non-ideographic query: the strategies are
      alternatives, so the score is the largest of them, never their sum. */
  function EntryScore(e: Entry, q: string): (r: int)
    ensures r >= PinyinScore(AsList(e.pinyin), q)
    ensures r >= DefinitionScore(e, q) && r >= HanziScore(e, q)
    ensures r == PinyinScore(AsList(e.pinyin), q) || r == DefinitionScore(e, q) || r == HanziScore(e, q)
  {
    Max(Max(PinyinScore(AsList(e.pinyin), q), DefinitionScore(e, q)), HanziScore(e, q))
  }

  /** A reading that equals the query once tone digits are dropped on both
      sides is a full match: "ni hao" finds "ni3 hao3". */
  lemma ReadingIgnoresToneDigits(p: string, q: string)
    requires RemoveDigits(p) == RemoveDigits(q) && StripPinyinNumbers(q) != []
    ensures ReadingScore(p, q) >= 100
  {
    ToneDigitsIgnored(p, q);
    var sp := StripPinyinNumbers(p);
    RankMatchLevels(sp, StripPinyinNumbers(q));
  }

  /** The reading strategy lifts that to the entry: an entry with such a
      reading scores at least 100. */
  lemma EntryIgnoresToneDigits(e: Entry, q: string, i: nat)
    requires i < |AsList(e.pinyin)|
    requires RemoveDigits(AsList(e.pinyin)[i]) == RemoveDigits(q) && StripPinyinNumbers(q) != []
    ensures EntryScore(e, q) >= 100
  {
    ReadingIgnoresToneDigits(AsList(e.pinyin)[i], q);
  }

  /** The documented example: an entry read "ni3 hao3" is a full match for the
      query "ni hao". */
  lemma NiHaoFindsToneDigits(e: Entry)
    requires e.pinyin == Str("ni3 hao3")
    ensures EntryScore(e, "ni hao") >= 100
  {
    StripExample();
    NiHaoDigits();
    EntryIgnoresToneDigits(e, "ni hao", 0);
  }

  /** The scores the non-ideographic branch can give. */
  const ScoreValues: set<int> := {0, 5, 50, 55, 60, 75, 80, 90, 100, 105, 115, 140}

  /** The reading strategy scores like one of its readings. */
  lemma PinyinScoreValues(ps: seq<string>, q: string)
    ensures PinyinScore(ps, q) in {0, 50, 75, 100} || (LooksLikePinyin(q) && PinyinScore(ps, q) in {5, 55, 80, 105})
  {
    var p := PinyinScore(ps, q);
    if p != 0 {
      var scores := ReadingScores(ps, q);
      var i :| 0 <= i < |scores| && scores[i] == p;
      assert p == ReadingScore(ps[i], q);
    }
  }

  /** Every score is one of the listed values; without a tone digit or mark
      in the query the +5 values cannot occur. */
  lemma EntryScoreValues(e: Entry, q: string)
    ensures EntryScore(e, q) in ScoreValues
    ensures !LooksLikePinyin(q) ==> EntryScore(e, q) in {0, 50, 60, 75, 90, 100, 115, 140}
  {
    PinyinScoreValues(AsList(e.pinyin), q);
    var d := DefinitionScore(e, q);
    var h := HanziScore(e, q);
    assert h in {0, 60};
  }

  /** Because the +5 is added even on a miss, a query with a tone digit or
      mark gives every entry with a non-empty reading a score of at least 5. */
  lemma ToneBonusOnMiss(e: Entry, q: string, i: nat)
    requires LooksLikePinyin(q)
    requires i < |AsList(e.pinyin)| && AsList(e.pinyin)[i] != []
    ensures EntryScore(e, q) >= 5
  {
  }

  /** The non-ideographic pass: every entry with a positive score, in
      dictionary order. */
  function ScoredHits(dict: seq<Entry>, q: string): (r: seq<Hit>)
    ensures |r| <= |dict|
    ensures forall h :: h in r ==> h.entry in dict && h.score > 0 && h.score == EntryScore(h.entry, q)
    ensures forall e :: e in dict && EntryScore(e, q) > 0 ==> Hit(e, EntryScore(e, q)) in r
  {
    if dict == [] then []
    else ScoredHit(dict[0], q) + ScoredHits(dict[1..], q)
  }

  /** The hit one entry contributes: itself with its score, when positive. */
  function ScoredHit(e: Entry, q: string): (r: seq<Hit>)
    ensures |r| <= 1
    ensures forall h :: h in r <==> h == Hit(e, EntryScore(e, q)) && EntryScore(e, q) > 0
  {
    var s := EntryScore(e, q);
    if s > 0 then [Hit(e, s)] else []
  }

  /** The raw, unfolded simplified or traditional form contains the query. */
  predicate HeadwordContains(e: Entry, q: string) {
    || (Truthy(e.simplified) && Contains(e.simplified.value, q))
    || (Truthy(e.traditional) && Contains(e.traditional.value, q))
  }

  /** The ideographic fallback pass: every entry whose headword contains the
      query, scored 60, in dictionary order. */
  function HanziHits(dict: seq<Entry>, q: string): (r: seq<Hit>)
    ensures |r| <= |dict|
    ensures forall h :: h in r ==> h.entry in dict && h.score == 60 && HeadwordContains(h.entry, q)
    ensures forall e :: e in dict && HeadwordContains(e, q) ==> Hit(e, 60) in r
  {
    if dict == [] then []
    else (if HeadwordContains(dict[0], q) then [Hit(dict[0], 60)] else []) + HanziHits(dict[1..], q)
  }

  /** The scan keeps dictionary order: scanning two blocks of entries gives
      the hits of the first block, then those of the second. */
  lemma {:induction false} ScoredHitsAppend(a: seq<Entry>, b: seq<Entry>, q: string)
    ensures ScoredHits(a + b, q) == ScoredHits(a, q) + ScoredHits(b, q)
    decreases |a|
  {
    if a == [] {
      assert a + b == b;
    } else {
      assert (a + b)[1..] == a[1..] + b;
      ScoredHitsAppend(a[1..], b, q);
      var x := ScoredHit(a[0], q);
      assert ScoredHits(a + b, q) == x + ScoredHits(a[1..] + b, q);
      SeqAssoc(x, ScoredHits(a[1..], q), ScoredHits(b, q));
    }
  }

  /** The fallback scan keeps dictionary order too. */
  lemma {:induction false} HanziHitsAppend(a: seq<Entry>, b: seq<Entry>, q: string)
    ensures HanziHits(a + b, q) == HanziHits(a, q) + HanziHits(b, q)
    decreases |a|
  {
    if a == [] {
      assert a + b == b;
    } else {
      assert (a + b)[1..] == a[1..] + b;
      HanziHitsAppend(a[1..], b, q);
      SeqAssoc(if HeadwordContains(a[0], q) then [Hit(a[0], 60)] else [],
                HanziHits(a[1..], q), HanziHits(b, q));
    }
  }}

=== FILE: search.dfy ===
/** `search`: classify the query, collect scored candidates, and either
    return the exact-hanzi hits at once or assemble the ranked results. */
module Searching {

  import opened Wrappers
  import opened Text
  import opened Entries
  import opened Normalize
  import opened Store
  import opened Scoring
  import opened Assemble

  datatype SearchError = NotLoaded

  /** The two shapes `search` returns: the raw `{ entry, score }` hits of an
      exact hanzi lookup, or the assembled, projected results. */
  datatype SearchOutput = ExactHits(hits: seq<Hit>) | Ranked(results: seq<SearchResult>)

  /** Every entry paired with the same score, in order. */
  function ScoreAll(es: seq<Entry>, score: int): (r: seq<Hit>)
    ensures |r| == |es|
    ensures forall i :: 0 <= i < |es| ==> r[i] == Hit(es[i], score)
  {
    if es == [] then [] else [Hit(es[0], score)] + ScoreAll(es[1..], score)
  }

  /** The candidates a trimmed, non-empty query collects by scanning the
      entries: the hanzi-substring pass for an ideographic query, the
      three-strategy scorer otherwise. */
  function Candidates(dict: seq<Entry>, q: string): seq<Hit> {
    if IsChineseInput(q) then HanziHits(dict, q) else ScoredHits(dict, q)
  }

  /** `search(query, { limit })`. Without a loaded store it fails; a blank
      query gives no results; an ideographic query that is a key of the
      index returns that listing at score 100 with no dedup, sort, limit or
      projection; anything else is scanned and assembled. */
  function Search(st: Store, query: string, limit: Option<int>): (r: Result<SearchOutput, SearchError>)
    ensures st.Unloaded? <==> r.Failure?
    ensures r.Success? && AllSpace(query) ==> r.value == Ranked([])
    ensures r.Success? && r.value.ExactHits? ==>
      && IsChineseInput(Trim(query)) && Trim(query) in st.index
      && r.value.hits == ScoreAll(st.index[Trim(query)], 100)
    ensures r.Success? && r.value.Ranked? ==>
      var res := r.value.results;
      && (forall i, j :: 0 <= i < j < |res| ==> DedupKey(res[i].raw) != DedupKey(res[j].raw))
      && (forall i, j :: 0 <= i < j < |res| ==> res[i].score >= res[j].score)
      && (EffectiveLimit(limit) > 0 ==> |res| <= EffectiveLimit(limit))
  {
    if st.Unloaded? then Failure(NotLoaded)
    else
      var q := Trim(query);
      TrimEmpty(query);
      if q == [] then Success(Ranked([]))
      else if IsChineseInput(q) && q in st.index && |st.index[q]| > 0 then
        Success(ExactHits(ScoreAll(st.index[q], 100)))
      else
        var hits := Candidates(st.dict, q);
        AssembleProperties(hits, EffectiveLimit(limit));
        Success(Ranked(AssembleResults(hits, EffectiveLimit(limit))))
  }

  /** An ideographic query that is an indexed headword returns exactly the
      entries listed under it, in load order, each at score 100. */
  lemma ExactHanziHits(st: Store, query: string)
    requires st.Loaded? && Consistent(st)
    requires IsChineseInput(Trim(query)) && Listing(st.dict, Trim(query)) != []
    ensures Search(st, query, None) == Success(ExactHits(ScoreAll(Listing(st.dict, Trim(query)), 100)))
    ensures forall limit :: Search(st, query, limit) == Search(st, query, None)
  {
  }

  /** Searching the exact simplified form of an ideographic entry returns that
      entry at score 100. */
  lemma ExactFormFindsEntry(st: Store, i: nat, limit: Option<int>)
    requires st.Loaded? && Consistent(st) && i < |st.dict|
    requires IsChineseInput(SimplifiedKey(st.dict[i]))
    requires Trim(SimplifiedKey(st.dict[i])) == SimplifiedKey(st.dict[i])
    ensures Search(st, SimplifiedKey(st.dict[i]), limit).Success?
    ensures Search(st, SimplifiedKey(st.dict[i]), limit).value.ExactHits?
    ensures Hit(st.dict[i], 100) in Search(st, SimplifiedKey(st.dict[i]), limit).value.hits
  {
    var e := st.dict[i];
    var k := SimplifiedKey(e);
    IndexListsBothForms(st, i);
    var hits := ScoreAll(st.index[k], 100);
    var j :| 0 <= j < |st.index[k]| && st.index[k][j] == e;
    assert hits[j] == Hit(e, 100);
  }

  /** Every assembled result is one of the candidate hits it came from. */
  lemma ResultFromHit(hits: seq<Hit>, limit: int, i: nat)
    requires i < |AssembleResults(hits, limit)|
    ensures Hit(AssembleResults(hits, limit)[i].raw, AssembleResults(hits, limit)[i].score) in hits
  {
    AssembleProperties(hits, limit);
    var r := AssembleResults(hits, limit);
    assert IsFirstBest(hits, Hit(r[i].raw, r[i].score));
    var j :| FirstBest(hits, j) && hits[j] == Hit(r[i].raw, r[i].score);
  }

  /** The results of a scan, once the query is known to be non-blank and not
      an exact headword. */
  lemma SearchScans(st: Store, query: string, limit: Option<int>)
    requires st.Loaded? && Trim(query) != []
    requires !(IsChineseInput(Trim(query)) && Trim(query) in st.index && |st.index[Trim(query)]| > 0)
    ensures Search(st, query, limit) == Success(Ranked(AssembleResults(Candidates(st.dict, Trim(query)), EffectiveLimit(limit))))
  {
  }

  /** When an ideographic query is not an indexed headword, every result is
      an entry whose simplified or traditional form contains the query, at
      score 60. */
  lemma HanziFallback(st: Store, query: string, limit: Option<int>)
    requires st.Loaded? && Consistent(st)
    requires IsChineseInput(Trim(query)) && Listing(st.dict, Trim(query)) == []
    ensures Search(st, query, limit).Success? && Search(st, query, limit).value.Ranked?
    ensures var res := Search(st, query, limit).value.results;
      forall i :: 0 <= i < |res| ==>
        res[i].score == 60 && res[i].raw in st.dict && HeadwordContains(res[i].raw, Trim(query))
  {
    var q := Trim(query);
    var hits := HanziHits(st.dict, q);
    var l := EffectiveLimit(limit);
    SearchScans(st, query, limit);
    var res := AssembleResults(hits, l);
    forall i | 0 <= i < |res|
      ensures res[i].score == 60 && res[i].raw in st.dict && HeadwordContains(res[i].raw, q)
    {
      ResultFromHit(hits, l, i);
    }
  }

  /** For any other query, each result carries its entry's best strategy
      score, which is positive and one of the reachable values. */
  lemma NonHanziScores(st: Store, query: string, limit: Option<int>)
    requires st.Loaded? && !IsChineseInput(Trim(query))
    ensures Search(st, query, limit).Success? && Search(st, query, limit).value.Ranked?
    ensures var res := Search(st, query, limit).value.results;
      forall i :: 0 <= i < |res| ==>
        && res[i].raw in st.dict
        && res[i].score == EntryScore(res[i].raw, Trim(query))
        && res[i].score in ScoreValues - {0}
  {
    var q := Trim(query);
    if q == [] {
      TrimEmpty(query);
    } else {
      var l := EffectiveLimit(limit);
      SearchScans(st, query, limit);
      var res := AssembleResults(ScoredHits(st.dict, q), l);
      forall i | 0 <= i < |res|
        ensures res[i].raw in st.dict && res[i].score == EntryScore(res[i].raw, q)
        ensures res[i].score in ScoreValues - {0}
      {
        ScoredResult(st.dict, q, l, i);
      }
    }
  }

  /** One result of a scored scan. */
  lemma ScoredResult(dict: seq<Entry>, q: string, limit: int, i: nat)
    requires i < |AssembleResults(ScoredHits(dict, q), limit)|
    ensures var r := AssembleResults(ScoredHits(dict, q), limit)[i];
      && r.raw in dict && r.score == EntryScore(r.raw, q) && r.score in ScoreValues - {0}
  {
    var r := AssembleResults(ScoredHits(dict, q), limit)[i];
    ResultFromHit(ScoredHits(dict, q), limit, i);
    EntryScoreValues(r.raw, q);
  }

  /** A positive limit caps the ranked results at that many. */
  lemma LimitRespected(st: Store, query: string, k: int)
    requires k > 0
    ensures Search(st, query, Some(k)).Success? && Search(st, query, Some(k)).value.Ranked? ==>
              |Search(st, query, Some(k)).value.results| <= k
  {
  }

  /** A missing or zero limit caps the ranked results at 20. */
  lemma DefaultLimit(st: Store, query: string, limit: Option<int>)
    requires limit == None || limit == Some(0)
    requires Search(st, query, limit).Success? && Search(st, query, limit).value.Ranked?
    ensures |Search(st, query, limit).value.results| <= 20
  {
  }
}

=== FILE: store.dfy ===
/** The entry store of the search module: the loaded entry array (`DICT`)
    and the exact-lookup multimap from each headword form to its entries
    (`DICT_MAP`), built once by `loadDictionary`. */
module Store {

  import opened Wrappers
  import opened Entries

  /** The decoded lexicon: a JSON array of entries, or a JSON object whose
      property values (in enumeration order) are the entries. */
  datatype Payload = ArrayPayload(items: seq<Entry>) | ObjectPayload(values: seq<Entry>)

  /** What fetching and decoding the lexicon produced; the network and the
      JSON decoder stay outside the model. */
  datatype Fetched = HttpError(status: int) | BadJson | Decoded(payload: Payload)

  datatype LoadError = LoadFailed(status: int) | Malformed

  /** The module state: nothing loaded yet, or the entries with their index. */
  datatype Store = Unloaded | Loaded(dict: seq<Entry>, index: map<string, seq<Entry>>)

  /** The simplified form, or empty text. */
  function SimplifiedKey(e: Entry): string {
    OrElse(e.simplified, [])
  }

  /** The traditional form, or empty text. */
  function TraditionalKey(e: Entry): string {
    OrElse(e.traditional, [])
  }

  /** What one entry contributes to the listing under `k`: itself once for
      each non-empty headword form equal to `k`, simplified first. */
  function Occurrences(e: Entry, k: string): seq<Entry> {
    (if k != [] && SimplifiedKey(e) == k then [e] else [])
    + (if k != [] && TraditionalKey(e) == k then [e] else [])
  }

  /** The listing the index must hold under `k`, read off the entries in
      order. */
  function Listing(dict: seq<Entry>, k: string): seq<Entry> {
    if dict == [] then [] else Occurrences(dict[0], k) + Listing(dict[1..], k)
  }

  /** `index` lists every key with a non-empty listing, and that listing. */
  ghost predicate IndexMatches(dict: seq<Entry>, index: map<string, seq<Entry>>) {
    && (forall k :: k in index <==> Listing(dict, k) != [])
    && (forall k :: k in index ==> index[k] == Listing(dict, k))
  }

  /** A loaded store's index is the one its entries determine. */
  ghost predicate Consistent(st: Store) {
    st.Loaded? ==> IndexMatches(st.dict, st.index)
  }

  /** Appending an entry appends its occurrences to every listing. */
  lemma {:induction false} ListingSnoc(dict: seq<Entry>, e: Entry, k: string)
    ensures Listing(dict + [e], k) == Listing(dict, k) + Occurrences(e, k)
    decreases |dict|
  {
    if dict == [] {
      assert [] + [e] == [e];
      assert [e][1..] == [];
    } else {
      assert (dict + [e])[1..] == dict[1..] + [e];
      ListingSnoc(dict[1..], e, k);
    }
  }

  /** Appends `e` to the listing under `k`, opening an empty listing first
      when `k` is new; an empty key is not indexed. */
  function Push(m: map<string, seq<Entry>>, k: string, e: Entry): map<string, seq<Entry>> {
    if k == [] then m else m[k := (if k in m then m[k] else []) + [e]]
  }

  /** One iteration of the indexing loop: the simplified key, then the
      traditional key. */
  function AddEntry(m: map<string, seq<Entry>>, e: Entry): map<string, seq<Entry>> {
    Push(Push(m, SimplifiedKey(e), e), TraditionalKey(e), e)
  }

  /** The map agrees with listing `l` at key `k`. */
  predicate AgreesAt(m: map<string, seq<Entry>>, k: string, l: seq<Entry>) {
    (k in m <==> l != []) && (k in m ==> m[k] == l)
  }

  /** One push extends the listing at its own non-empty key by the entry. */
  lemma PushAgrees(m: map<string, seq<Entry>>, key: string, e: Entry, k: string, l: seq<Entry>)
    requires AgreesAt(m, k, l)
    ensures AgreesAt(Push(m, key, e), k, l + (if key != [] && key == k then [e] else []))
  {
    if key != [] && key == k {
      assert l + [e] != [];
    } else {
      assert l + [] == l;
    }
  }

  /** One loop iteration extends every listing by the entry's occurrences. */
  lemma AddEntryMatches(prefix: seq<Entry>, m: map<string, seq<Entry>>, e: Entry)
    requires IndexMatches(prefix, m)
    ensures IndexMatches(prefix + [e], AddEntry(m, e))
  {
    var m' := AddEntry(m, e);
    forall k
      ensures AgreesAt(m', k, Listing(prefix + [e], k))
    {
      var l := Listing(prefix, k);
      ListingSnoc(prefix, e, k);
      var s := if k != [] && SimplifiedKey(e) == k then [e] else [];
      var t := if k != [] && TraditionalKey(e) == k then [e] else [];
      assert AgreesAt(m, k, l);
      PushAgrees(m, SimplifiedKey(e), e, k, l);
      PushAgrees(Push(m, SimplifiedKey(e), e), TraditionalKey(e), e, k, l + s);
      assert l + s + t == l + Occurrences(e, k);
    }
  }

  /** The indexing loop of `loadDictionary`, entries visited in order. */
  function BuildIndex(dict: seq<Entry>): (m: map<string, seq<Entry>>)
    ensures IndexMatches(dict, m)
    decreases |dict|
  {
    if dict == [] then map[]
    else
      var prefix := dict[..|dict| - 1];
      var e := dict[|dict| - 1];
      assert prefix + [e] == dict;
      AddEntryMatches(prefix, BuildIndex(prefix), e);
      AddEntry(BuildIndex(prefix), e)
  }

  function PayloadEntries(p: Payload): seq<Entry> {
    match p
    case ArrayPayload(items) => items
    case ObjectPayload(values) => values
  }

  /** `loadDictionary`: a loaded store answers with its entries and nothing
      is fetched or rebuilt; otherwise an HTTP error or undecodable body
      fails the call and leaves the store empty, and a decoded payload
      becomes the store with its index. */
  function LoadDictionary(st: Store, fetched: Fetched): (r: (Store, Result<seq<Entry>, LoadError>))
    ensures st.Loaded? ==> r == (st, Success(st.dict))
    ensures r.1.Success? ==> r.0.Loaded? && r.0.dict == r.1.value
    ensures r.1.Failure? ==> r.0 == st && st.Unloaded?
    ensures st.Unloaded? ==> (r.1.Success? <==> fetched.Decoded?)
    ensures st.Unloaded? && fetched.HttpError? ==> r.1 == Failure(LoadFailed(fetched.status))
    ensures st.Unloaded? && fetched.Decoded? ==> r.0.dict == PayloadEntries(fetched.payload)
    ensures r.0.Loaded? && r.0 != st ==> IndexMatches(r.0.dict, r.0.index)
  {
    match st
    case Loaded(dict, _) => (st, Success(dict))
    case Unloaded =>
      match fetched
      case HttpError(status) => (st, Failure(LoadFailed(status)))
      case BadJson => (st, Failure(Malformed))
      case Decoded(payload) =>
        var dict := PayloadEntries(payload);
        (Loaded(dict, BuildIndex(dict)), Success(dict))
  }

  /** Loading never breaks the agreement between entries and index. */
  lemma LoadKeepsConsistent(st: Store, fetched: Fetched)
    requires Consistent(st)
    ensures Consistent(LoadDictionary(st, fetched).0)
  {
  }

  /** A second load returns the stored array unchanged, whatever the second
      fetch would have produced. */
  lemma LoadIdempotent(st: Store, first: Fetched, second: Fetched)
    requires LoadDictionary(st, first).1.Success?
    ensures LoadDictionary(LoadDictionary(st, first).0, second) == LoadDictionary(st, first)
  {
  }

  /** Each entry shows up in the listing under `k` at least as often as it
      contributes to it. */
  lemma {:induction false} ListedAtLeast(dict: seq<Entry>, i: nat, k: string)
    requires i < |dict|
    ensures multiset(Listing(dict, k))[dict[i]] >= |Occurrences(dict[i], k)|
    decreases |dict|
  {
    var o := Occurrences(dict[0], k);
    var l := Listing(dict[1..], k);
    assert multiset(Listing(dict, k)) == multiset(o) + multiset(l);
    if i > 0 {
      ListedAtLeast(dict[1..], i - 1, k);
      assert dict[1..][i - 1] == dict[i];
      assert multiset(Listing(dict, k))[dict[i]] >= multiset(l)[dict[i]];
    } else {
      assert multiset(o)[dict[0]] == |o|;
    }
  }

  /** After a load every entry is listed under its non-empty simplified form
      and under its non-empty traditional form; when the two forms are the
      same it is listed twice under that one key. */
  lemma IndexListsBothForms(st: Store, i: nat)
    requires st.Loaded? && Consistent(st) && i < |st.dict|
    ensures SimplifiedKey(st.dict[i]) != [] ==>
      SimplifiedKey(st.dict[i]) in st.index && st.dict[i] in st.index[SimplifiedKey(st.dict[i])]
    ensures TraditionalKey(st.dict[i]) != [] ==>
      TraditionalKey(st.dict[i]) in st.index && st.dict[i] in st.index[TraditionalKey(st.dict[i])]
    ensures SimplifiedKey(st.dict[i]) != [] && SimplifiedKey(st.dict[i]) == TraditionalKey(st.dict[i]) ==>
      multiset(st.index[SimplifiedKey(st.dict[i])])[st.dict[i]] >= 2
  {
    var e := st.dict[i];
    ListedAtLeast(st.dict, i, SimplifiedKey(e));
    ListedAtLeast(st.dict, i, TraditionalKey(e));
  }
}

=== FILE: text.dfy ===
/** String primitives with the meaning JavaScript gives them: the whitespace
    class of `\s` and `String.prototype.trim`, `startsWith`, `includes`,
    `split` on a one-character separator and `Array.prototype.join`. */
module Text {

  import opened Wrappers

  /** LineTerminator of ECMAScript; these are the characters `.` refuses. */
  predicate IsLineTerminator(c: char) {
    c == '\n' || c == '\r' || c == '\U{2028}' || c == '\U{2029}'
  }

  /** WhiteSpace plus LineTerminator of ECMAScript, the Zs category written
      out: exactly the characters `\s` matches and `trim` removes. */
  predicate IsSpace(c: char) {
    || c == ' ' || '\t' <= c <= '\r' || c == '\U{00A0}' || c == '\U{FEFF}' || c == '\U{1680}'
    || '\U{2000}' <= c <= '\U{200A}' || c == '\U{2028}' || c == '\U{2029}'
    || c == '\U{202F}' || c == '\U{205F}' || c == '\U{3000}'
  }

  predicate IsDigit(c: char) { '0' <= c <= '9' }

  predicate IsUpper(c: char) { 'A' <= c <= 'Z' }

  /** No ASCII letter is whitespace. */
  lemma LetterIsNotSpace(c: char)
    requires 'A' <= c <= 'z'
    ensures !IsSpace(c)
  {

  }

  /** ASCII case folding. */
  function ToLower(c: char): (d: char)
    ensures !IsUpper(d)
    ensures IsSpace(d) <==> IsSpace(c)
    ensures IsDigit(d) <==> IsDigit(c)
    ensures !IsUpper(c) ==> d == c
  {
    if IsUpper(c) then
      LetterIsNotSpace(c);
      LetterIsNotSpace((c as int + 32) as char);
      (c as int + 32) as char
    else c
  }

  function Lower(s: string): (r: string)
    ensures |r| == |s|
    ensures forall i :: 0 <= i < |s| ==> r[i] == ToLower(s[i])
  {
    seq(|s|, i requires 0 <= i < |s| => ToLower(s[i]))
  }

  predicate NoUpper(s: string) {
    forall i :: 0 <= i < |s| ==> !IsUpper(s[i])
  }

  predicate NoDigits(s: string) {
    forall i :: 0 <= i < |s| ==> !IsDigit(s[i])
  }

  predicate NoLineTerminator(s: string) {
    forall i :: 0 <= i < |s| ==> !IsLineTerminator(s[i])
  }

  predicate AllSpace(s: string) {
    forall i :: 0 <= i < |s| ==> IsSpace(s[i])
  }

  predicate NoSpace(s: string) {
    forall i :: 0 <= i < |s| ==> !IsSpace(s[i])
  }

  /** Neither end is whitespace. */
  predicate Trimmed(s: string) {
    s == [] || (!IsSpace(s[0]) && !IsSpace(s[|s| - 1]))
  }

  lemma LowerFixesLowerCase(s: string)
    requires NoUpper(s)
    ensures Lower(s) == s
  {
  }

  /** Drops the leading whitespace run. */
  function TrimStart(s: string): (r: string)
    ensures |r| <= |s| && r == s[|s| - |r|..]
    ensures r == [] || !IsSpace(r[0])
  {
    if s != [] && IsSpace(s[0]) then TrimStart(s[1..]) else s
  }

  /** What `TrimStart` drops is whitespace. */
  lemma {:induction false} TrimStartDrops(s: string)
    ensures AllSpace(s[..|s| - |TrimStart(s)|])
    decreases |s|
  {
    if s != [] && IsSpace(s[0]) {
      TrimStartDrops(s[1..]);
      var n := |s| - |TrimStart(s)|;
      assert s[..n] == [s[0]] + s[1..][..n - 1];
    }
  }

  /** Drops the trailing whitespace run. */
  function TrimEnd(s: string): (r: string)
    ensures |r| <= |s| && r == s[..|r|]
    ensures r == [] || !IsSpace(r[|r| - 1])
  {
    if s != [] && IsSpace(s[|s| - 1]) then TrimEnd(s[..|s| - 1]) else s
  }

  /** What `TrimEnd` drops is whitespace. */
  lemma {:induction false} TrimEndDrops(s: string)
    ensures AllSpace(s[|TrimEnd(s)|..])
    decreases |s|
  {
    if s != [] && IsSpace(s[|s| - 1]) {
      var r := TrimEnd(s);
      TrimEndDrops(s[..|s| - 1]);
      assert s[|r|..] == s[..|s| - 1][|r|..] + [s[|s| - 1]];
    }
  }

  /** `String.prototype.trim`: the text left once the leading and the
      trailing whitespace runs are gone. */
  function Trim(s: string): (r: string)
    ensures Trimmed(r)
  {
    TrimEnd(TrimStart(s))
  }

  /** `Trim` keeps the middle of the text, between two whitespace runs. */
  lemma TrimShape(s: string)
    ensures LeadingSpace(s) + |Trim(s)| <= |s|
    ensures Trim(s) == s[LeadingSpace(s)..LeadingSpace(s) + |Trim(s)|]
    ensures AllSpace(s[..LeadingSpace(s)]) && AllSpace(s[LeadingSpace(s) + |Trim(s)|..])
  {
    var t := TrimStart(s);
    var r := TrimEnd(t);
    TrimStartDrops(s);
    TrimEndDrops(t);
    assert s[|s| - |t| + |r|..] == t[|r|..];
  }

  /** Trimming keeps any property every character has. */
  lemma TrimKeeps(s: string, P: char -> bool)
    requires forall i :: 0 <= i < |s| ==> P(s[i])
    ensures forall i :: 0 <= i < |Trim(s)| ==> P(Trim(s)[i])
  {
    var t := Trim(s);
    var k := LeadingSpace(s);
    TrimShape(s);
    assert forall i :: 0 <= i < |t| ==> t[i] == s[k + i];
  }

  /** Trimming leaves nothing exactly when the text is all whitespace. */
  lemma TrimEmpty(s: string)
    ensures Trim(s) == [] <==> AllSpace(s)
  {
    var k := LeadingSpace(s);
    var r := Trim(s);
    TrimShape(s);
    if r == [] {
      assert s == s[..k] + s[k..];
    } else {
      assert !IsSpace(s[k]);
    }
  }

  /** Length of the leading whitespace run. */
  function LeadingSpace(s: string): (n: nat)
    ensures n <= |s|
  {
    |s| - |TrimStart(s)|
  }

  lemma TrimFixesTrimmed(s: string)
    requires Trimmed(s)
    ensures Trim(s) == s
  {
  }

  /** `p` occurs somewhere in `s`. */
  predicate Contains(s: string, p: string) {
    exists i :: 0 <= i <= |s| && p <= s[i..]
  }

  lemma ContainsPrefix(s: string, p: string)
    requires p <= s
    ensures Contains(s, p)
  {
    assert s[0..] == s;
  }

  /** Index of the first `c` in `s`, if any. */
  function IndexOf(s: string, c: char): (r: Option<nat>)
    ensures r.Some? ==> r.value < |s| && s[r.value] == c && c !in s[..r.value]
    ensures r.None? <==> c !in s
  {
    if s == [] then None
    else if s[0] == c then Some(0)
    else match IndexOf(s[1..], c)
      case None => None
      case Some(i) => Some(i + 1)
  }

  /** Splitting on a one-character separator: the maximal `c`-free pieces,
      always at least one. */
  function Split(s: string, c: char): (r: seq<string>)
    ensures |r| >= 1
  {
    if s == [] then [[]]
    else
      var rest := Split(s[1..], c);
      if s[0] == c then [[]] + rest
      else
        assert s == [s[0]] + s[1..];
        [[s[0]] + rest[0]] + rest[1..]
  }

  /** Text without the separator is one piece. */
  lemma {:induction false} SplitWhole(s: string, c: char)
    requires c !in s
    ensures Split(s, c) == [s]
    decreases |s|
  {
    if s != [] {
      SplitWhole(s[1..], c);
      assert s == [s[0]] + s[1..];
    }
  }

  /** No piece holds the separator. */
  lemma {:induction false} SplitPiecesFree(s: string, c: char)
    ensures forall i :: 0 <= i < |Split(s, c)| ==> c !in Split(s, c)[i]
    decreases |s|
  {
    if s != [] {
      var rest := Split(s[1..], c);
      SplitPiecesFree(s[1..], c);
      var r := Split(s, c);
      if s[0] == c {
        assert forall i :: 1 <= i < |r| ==> r[i] == rest[i - 1];
      } else {
        assert forall i :: 1 <= i < |r| ==> r[i] == rest[i];
        assert c !in [s[0]] + rest[0];
      }
    }
  }

  /** The pieces with `sep` between neighbours. */
  function Join(xs: seq<string>, sep: string): string {
    if |xs| == 0 then []
    else if |xs| == 1 then xs[0]
    else xs[0] + sep + Join(xs[1..], sep)
  }

  lemma JoinCons(x: string, xs: seq<string>, sep: string)
    requires xs != []
    ensures Join([x] + xs, sep) == x + sep + Join(xs, sep)
  {
    assert ([x] + xs)[1..] == xs;
  }

  /** Splitting on `c` and joining back with `c` gives the text back. */
  lemma {:induction false} JoinSplit(s: string, c: char)
    ensures Join(Split(s, c), [c]) == s
    decreases |s|
  {
    if s != [] {
      var rest := Split(s[1..], c);
      JoinSplit(s[1..], c);
      if s[0] == c {
        JoinCons([], rest, [c]);
      } else if |rest| > 1 {
        var a, tl := rest[0], rest[1..];
        assert [a] + tl == rest;
        JoinCons(a, tl, [c]);
        JoinCons([s[0]] + a, tl, [c]);
        SeqAssoc([s[0]], a + [c], Join(tl, [c]));
        SeqAssoc([s[0]], a, [c]);
        assert s == [s[0]] + s[1..];
      }
    }
  }

  /** Concatenation is associative, for sequences of any element type. */
  lemma SeqAssoc<T>(x: seq<T>, y: seq<T>, z: seq<T>)
    ensures x + (y + z) == x + y + z
  {
  }

  /** Split(pre + [c] + post) peels off the `c`-free piece `pre`. */
  lemma {:induction false} SplitAtFirst(pre: string, c: char, post: string)
    requires c !in pre
    ensures Split(pre + [c] + post, c) == [pre] + Split(post, c)
    decreases |pre|
  {
    var s := pre + [c] + post;
    if pre == [] {
      assert s[1..] == post;
    } else {
      assert s[1..] == pre[1..] + [c] + post;
      SplitAtFirst(pre[1..], c, post);
      assert [pre[0]] + pre[1..] == pre;
    }
  }

  /** Splitting text joined by one separator splits each side apart. */
  lemma {:induction false} SplitConcat(pre: string, c: char, post: string)
    ensures Split(pre + [c] + post, c) == Split(pre, c) + Split(post, c)
    decreases |pre|
  {
    var s := pre + [c] + post;
    if pre == [] {
      assert s[1..] == post;
    } else {
      assert s[1..] == pre[1..] + [c] + post;
      SplitConcat(pre[1..], c, post);
      var a, b := Split(pre[1..], c), Split(post, c);
      if pre[0] == c {
        SeqAssoc([[]], a, b);
      } else {
        assert (a + b)[1..] == a[1..] + b;
        SeqAssoc([[pre[0]] + a[0]], a[1..], b);
      }
    }
  }

  /** Splitting a join of `c`-free pieces gives the pieces back. */
  lemma {:induction false} SplitJoin(xs: seq<string>, c: char)
    requires xs != []
    requires forall i :: 0 <= i < |xs| ==> c !in xs[i]
    ensures Split(Join(xs, [c]), c) == xs
    decreases |xs|
  {
    if |xs| > 1 {
      SplitJoin(xs[1..], c);
      SplitAtFirst(xs[0], c, Join(xs[1..], [c]));
      assert [xs[0]] + xs[1..] == xs;
    } else {
      SplitWhole(xs[0], c);
    }
  }
}

=== FILE: wrappers.dfy ===
/** Option and Result, the two failure-carrying shapes the model uses in place
    of JavaScript's `undefined` and thrown errors. */
module Wrappers {

  datatype Option<+T> = None | Some(value: T)

  datatype Result<+T, +E> = Success(value: T) | Failure(error: E)
}
